=== FILE: README.md ===
# StudioClock board generator: a Dafny model

The StudioClock script lays out and routes a circular LED clock board. It
puts sixty seconds LEDs and twelve hour LEDs on two circles, four
seven-segment digits in a row, two separator LEDs and two connectors, and
draws a square board outline. It then routes copper:

- the digits' cathodes are joined by U-shaped staples and carried out to
  their rings by an outer bus;
- the separator LEDs hang on a k15 bus;
- every cathode net gets a full polygon ring, with each pad joined to it
  by a template chosen from the part it belongs to;
- every anode net is routed by a template chosen from its number.

This project models the discrete layer under the `pcbnew` calls as pure
functions. They return sequences of `Track(start, end, net, layer)` and
`Via(pos, net)` records in the order the script adds them to the board.

- **Coordinates** are exact reals in nanometres.
- **Clock angles** are exact reals in degrees.
- **Trigonometry** is an opaque parameter (`Geometry.Trig`).
- **Python exceptions** (`KeyError`, `IndexError`, `ValueError` from `max`,
  `ZeroDivisionError`, a `None` dereference, `StopIteration`, a failed
  `assert`) become `Wrappers.Result` errors.

The modules follow the script's parts:

| module | part |
|---|---|
| `Geometry`, `ClockFace` | points, layers and records; clock-position arithmetic, ring radii, polygon vertices |
| `Arc` | `add_track_arc` and `add_track_ring` |
| `Annotation` | `regex_split_annotation` |
| `OrderedDict` | the insertion-ordered Python `dict` |
| `Nets` | pads, grouping into nets, the cathode/anode split |
| `Placement` | placement of every footprint and the outline |
| `Templates` | `digit_u_connect`, `add_track_with_intersection`, bridge, dogleg |
| `DigitBus` | staples, outer bus, k15 bus |
| `Cathode` | ring cathode routing |
| `Anode` | anode dispatch and its segment and inner-ring templates |

### The backward arc

A backward `add_track_arc` to a fractional stop lowers the integer bound of
its `arange` by one. Because `arange` already excludes its bound, the walk
ends at vertex `floor(stop) − 1`, two vertices past `ceil(stop)`. The stop
chord then runs forward from there to the stop position.

For the a3 segment (46.5 → 33.5) this means fourteen edges down to vertex 32,
then a chord back up to 33.5. The board depends on this path, so the model
reproduces it (`Arc.BackwardOvershoot`, `Arc.SegmentThreeArc`). It is not
treated as a defect.

## Model

| member | source | states |
|---|---|---|
| ClockFace.AngleHalfTurns | makeStudioClock.py:29-30 | the clock angle lies in (−3π, −π] |
| ClockFace.AngleDegrees | makeStudioClock.py:29-35 | the degree angle is −6·(p mod 60) − 180 and lies in (−540, −180] |
| ClockFace.AnglePeriodic | makeStudioClock.py:29-30 | the angle depends on the position only modulo 60 |
| ClockFace.AngleDecreasing | makeStudioClock.py:29-30 | within one turn a later position has a strictly smaller angle |
| ClockFace.RingRotation | makeStudioClock.py:310 | an LED's rotation is −60·(p mod 60) − 2700 tenths of a degree |
| ClockFace.RadiusIncreasing | makeStudioClock.py:72-79 | ring radii rise strictly with the net number, 0.75 mm per step |
| ClockFace.RadiusForNet | makeStudioClock.py:72-79 | ring 16 lies 1.2 mm inside the given radius and exactly the lower-numbered rings lie further in; with the 0.75 mm step of RadiusIncreasing this fixes every ring, whatever the unused `f` branch computes |
| ClockFace.VertexPeriodic | makeStudioClock.py:51-56 | polygon vertex k and vertex k mod 60 are the same point |
| ClockFace.Polar | makeStudioClock.py:38-56 | a clock position maps to the polar point at the given radius and at the angle −6·(p mod 60) − 180 degrees |
| ClockFace.PolarPeriodic | makeStudioClock.py:38-56 | positions a whole number of turns apart map to the same point |
| ClockFace.RingHitReflection | makeStudioClock.py:213-229 | the two sides of a ring intersection are mirror images through the origin |
| ClockFace.RingHit | makeStudioClock.py:213-229 | for the sides the callers pass: side 1 is the ray's intersection with the polygon, side −1 its mirror through the origin, and side 0 (from `np.sign` of a via on the y axis) the origin itself |
| ClockFace.ByPosition | makeStudioClock.py:232-242 | the intersection by position is the mirror of the side −1 intersection for the slope the position gives, so it always lies on side 1 |
| Geometry.Trunc | makeStudioClock.py:119-120 | numpy's integral part truncates toward zero |
| Geometry.Ceil | makeStudioClock.py:122-123 | a forward walk's first vertex is the least integer not below the start |
| Geometry.TruncOfNonNegative | makeStudioClock.py:119-120 | for non-negative positions, truncation is floor and a fractional part means a non-integer |
| Geometry.Mod60 | makeStudioClock.py:30 | Python's float `% 60` lies in [0, 60) and differs from its argument by a multiple of 60 |
| Geometry.Mod60Shift | makeStudioClock.py:30 | adding whole turns does not change the remainder |
| Geometry.Mod60Identity | makeStudioClock.py:30 | a position already in [0, 60) is its own remainder |
| Geometry.Sign | makeStudioClock.py:444 | `np.sign` is −1, 0 or 1, zero exactly at 0, and times x gives abs(x) |
| Geometry.DistanceSquared | makeStudioClock.py:687-688 | the squared distance is (Δx)² + (Δy)², never negative, and zero exactly when the points are equal |
| Geometry.SquaresSum | makeStudioClock.py:687-688 | a sum of two squares is non-negative, and positive unless both are zero |
| Annotation.SplitAnnotation | makeStudioClock.py:257-259 | the split succeeds iff a digit follows the leading letter-or-`/` run; the prefix is that run, a prefix of the text |
| Annotation.SplitRoundTrip | makeStudioClock.py:257-259 | splitting prefix + decimal number + non-digit tail returns exactly the prefix and the number |
| Annotation.PrefixRun | makeStudioClock.py:258 | the greedy prefix group stops exactly at the first non-prefix character |
| Annotation.DigitRun | makeStudioClock.py:258 | the digit group stops exactly at the first non-digit |
| Annotation.SplitWithoutNumber | makeStudioClock.py:257-259 | a name with no digits after its prefix fails with no number |
| Annotation.PrefixAll | makeStudioClock.py:258 | text made only of prefix characters is one prefix run |
| Annotation.NatToDigits | makeStudioClock.py:293-297 | `str(i)` spells a non-empty run of digits whose value is i |
| Annotation.SplitName | makeStudioClock.py:257-259 | a name spelled as a letter prefix followed by the decimal digits of a number splits into exactly that prefix and number |
| Annotation.SplitDigitName | makeStudioClock.py:257-259 | "D37" splits into ("D", 37) |
| Annotation.SplitBusName | makeStudioClock.py:257-259 | "k15" splits into ("k", 15) |
| Annotation.SplitAnodeName | makeStudioClock.py:257-259 | "a50" splits into ("a", 50) |
| Annotation.SplitConnectorName | makeStudioClock.py:257-259 | "J2" splits into ("J", 2) |
| OrderedDict.Get | makeStudioClock.py:419-424 | lookup finds a value iff the key is present, the value stored under it |
| OrderedDict.Put | makeStudioClock.py:422 | assignment keeps the key order (appending a new key), stores the value, and leaves other keys alone |
| OrderedDict.Pop | makeStudioClock.py:423-424 | `pop` fails iff the key is missing, and otherwise returns its value and removes only that key, keeping the order |
| OrderedDict.PopKeys | makeStudioClock.py:423-424 | on a dict without repeated keys, `pop` leaves every other key in its order |
| OrderedDict.GetSplice | makeStudioClock.py:423-424 | removing one entry of a dict removes exactly that key and keeps every other lookup |
| Nets.AllPads | makeStudioClock.py:301-302 | a pad is visited iff it belongs to one of the footprints |
| Nets.AllPadsInOrder | makeStudioClock.py:301-302 | the pads come footprint by footprint, each footprint's pads in its own order |
| Nets.AddToNet | makeStudioClock.py:303 | appending to a `defaultdict(list)` adds the pad to the end of its own net's list only, creating the net last if new |
| Nets.GroupByNet | makeStudioClock.py:300-303 | the grouping has one entry per net name used by some pad and no other |
| Nets.GroupContents | makeStudioClock.py:300-303 | each net lists exactly the pads on it, in discovery order |
| Nets.GroupOrder | makeStudioClock.py:300-303 | nets are listed in the order their first pad was discovered |
| Nets.Select | makeStudioClock.py:304-305 | a filtered dict keeps exactly the nets whose name starts with the letter, with unchanged lists |
| Nets.SelectInOrder | makeStudioClock.py:304-305 | the kept nets stay in the order of the unfiltered dict: each entry contributes itself if its name starts with the letter, nothing otherwise |
| Nets.CathodeAnodeSplit | makeStudioClock.py:304-305 | no net is both cathode (`k…`) and anode (`a…`), and a net of any other name is in neither |
| Placement.SecondPositions | makeStudioClock.py:308-314 | D1…D60 take the sixty clock positions 0…59, one each |
| Placement.HourPositions | makeStudioClock.py:324-331 | D61…D72 take positions 0, 5, …, 55, one each, agreeing with the router's `i % 61 * 5` |
| Placement.PlaceSecond | makeStudioClock.py:308-314 | a seconds LED sits on vertex i − 1 of the seconds circle, facing out at −60·(i − 1) − 2700 |
| Placement.SecondsPlacement | makeStudioClock.py:308-314 | the placement of `D<i>` parsed from its own name is vertex i − 1 with that rotation |
| Placement.PlaceHour | makeStudioClock.py:324-331 | an hour LED sits at position (i − 61)·5 of the 1.1× circle, facing out |
| Placement.DigitOffset | makeStudioClock.py:59-69 | the table index fails outside −4…3 (negative indices count from the end) and a zero width divides by zero; otherwise the offset is slot (position mod 4) |
| Placement.DigitSlotsSymmetric | makeStudioClock.py:59-69 | slot 3 − k is the mirror of slot k |
| Placement.DigitSlotsIncreasing | makeStudioClock.py:59-69 | gaps are w + s, w + 2s, w + s, so the row is strictly increasing for w > 0, s ≥ 0 |
| Placement.DigitRow | makeStudioClock.py:59-69 | with gap 3 and width 10 the digits sit at −21, −8, 8 and 21 mm |
| Placement.PlaceDigit | makeStudioClock.py:342-348 | digit `U<i>` is placed at slot i − 1 with the fixed rotation, and fails for i > 4 |
| Placement.PlaceSeparator | makeStudioClock.py:351-356 | D73 sits on the y axis at y = +4 mm, the other separator at y = −4 mm, rotated 2700 |
| Placement.PlaceConnector | makeStudioClock.py:359-365 | J1 sits on the y axis at y = −15 mm, the other connector at y = +15 mm, rotated 2700 |
| Placement.SeparatorsMirrored | makeStudioClock.py:351-356 | the two separators D73 and D74 are mirror images through the centre |
| Placement.ConnectorsMirrored | makeStudioClock.py:359-365 | the two connectors J1 and J2 are mirror images through the centre |
| Placement.SquareSides | makeStudioClock.py:368-392 | consecutive corners of the outline table, and the last and first, span a full side of the square of half-side HalfSide |
| Placement.Outline | makeStudioClock.py:368-392 | four segments, segment i running from corner i to corner (i + 1) mod 4, so each ends where the next begins and the loop closes; each is an axis-aligned full side of the square |
| Arc.Walk | makeStudioClock.py:123-143 | a walk has exactly the requested number of edges |
| Arc.WalkAt | makeStudioClock.py:123-143 | edge i of a walk joins the vertices i and i + 1 steps from its start |
| Arc.WalkChained | makeStudioClock.py:123-143 | a walk is one chain of tracks on its layer and net, from its first vertex to its last |
| Arc.Arc | makeStudioClock.py:104-159 | the arc fails iff a chord is needed but no edge was walked; edge i joins the vertices i and i + 1 steps along; a chord exists iff its end is fractional and it meets the walked edge |
| Arc.ArcEdgesChained | makeStudioClock.py:123-143 | the walked edges chain from the first walked vertex to the last |
| Arc.JoinedPath | makeStudioClock.py:144-158 | the chords joined to the edges form one chain in path order |
| Arc.JoinedReturns | makeStudioClock.py:144-159 | the emitted tracks are the path's tracks, and the returned pair is the first and last track of the path |
| Arc.EmittedOn | makeStudioClock.py:104-159 | every emitted track is on the arc's layer and net |
| Arc.ArcJoined | makeStudioClock.py:144-158 | an arc's chords join its edges, all on its layer and net |
| Arc.ArcPath | makeStudioClock.py:104-159 | an arc is one chain, and the returned pair is its first and last track |
| Arc.ArcEnds | makeStudioClock.py:104-159 | an arc runs from the exact start position to the exact stop position: the vertex if integral, the ring point if fractional |
| Arc.ForwardArc | makeStudioClock.py:121-132 | a forward arc walks (p, p + 1) for p from ceil(start) to floor(stop) − 1, and fails iff there is no such p and an end is fractional |
| Arc.BackwardArc | makeStudioClock.py:133-143 | a backward arc walks (p, p − 1) from floor(start) down to one above the lowered bound |
| Arc.BackwardOvershoot | makeStudioClock.py:133-158 | to a fractional stop the last edge ends at ceil(stop) − 2 and the chord runs back from there |
| Arc.ClosedRing | makeStudioClock.py:163-164 | 61 edges from vertex i to vertex i + 1 are chained, edge 59 ends where edge 0 starts and edge 60 repeats edge 0 |
| Arc.Ring | makeStudioClock.py:163-164 | a ring is 61 chained edges, edge i leaving vertex i; the last edge equals the first and edge 59 closes the polygon |
| Arc.SegmentZeroArc | makeStudioClock.py:625-631 | the a0 arc 13.5 → 26.5 is twelve edges 14 → 26 and two chords, from ring point 13.5 to 26.5 |
| Arc.SegmentThreeArc | makeStudioClock.py:648-654 | the a3 arc 46.5 → 33.5 is fourteen edges 46 → 32 and a chord from vertex 32 to 33.5 |
| Arc.InnerArc | makeStudioClock.py:683-685 | the a4 arc 36 → 24 is twelve edges, edge i from vertex 36 − i to 35 − i, with no chords |
| Templates.StapleRoute | makeStudioClock.py:180-210 | fails iff the nets differ; tracks F, B, F chained pad a → via → via → pad b, vertical legs at the given distance, and returns the via further from the centre line (via b on a tie) |
| Templates.Escape | makeStudioClock.py:245-254 | fails iff the start is on the vertical axis; the front track ends on the target's vertical line, collinear with the origin and the start, then a via and a back track to the target |
| Templates.FirstConnector | makeStudioClock.py:702-706 | finds the first member on a `J` part, and none iff there is none |
| Templates.Bridge | makeStudioClock.py:701-737 | fails without a connector member or with fewer than two others; joins the first two others on the front, puts a via 3 mm towards negative y from the first of them when its y is positive, and from the second otherwise, and climbs at 45° then runs to the connector pad on the back, both back tracks on the first remaining member's net |
| Templates.Dogleg | makeStudioClock.py:738-751 | fails with fewer than two members; a horizontal front track, a via at the elbow, and a vertical back track into the second member |
| Cathode.RingNumber | makeStudioClock.py:512-515 | the ring number fails iff the net name has no number; its value for the names the loop sees is stated by RingNumberOfName |
| Cathode.RingNumberOfName | makeStudioClock.py:512-515 | the net spelled `k<n>` rides ring n, except `k15`, which rides ring −1 |
| Cathode.SecondsCathode | makeStudioClock.py:520-529 | a seconds pad goes on the front to vertex i − 1 of its ring, where ring edge i − 1 starts, then a via |
| Cathode.HourPosition | makeStudioClock.py:538 | `i % 61 * 5` is (i − 61)·5 for the hour LEDs |
| Cathode.HourCathode | makeStudioClock.py:531-565 | an hour pad's route never fails: from its clock position (i − 61)·5 on the polygon through its pad, two polygon edges, a jog, a 4 mm back radial and a front track out to its ring, chained in that order, with the ring via left out for hours 61, 71, 72 |
| Cathode.HourJog | makeStudioClock.py:538-565 | the hour arc's two edges followed by the jog, the back radial and the track to the ring, chained and on one net, with a via at each layer change |
| Cathode.HourArc | makeStudioClock.py:538-541 | the hour arc from a whole position is two edges with no chords, the second one returned |
| Cathode.ConnectorCathode | makeStudioClock.py:566-601 | a connector pad runs vertically on the back to a via at its part's y − 4 mm, then on the front to the pin's ray at its own x and out along it to the ring, ending in a via |
| Cathode.KindOf | makeStudioClock.py:518-566 | D ≤ 60 is a seconds pad, D 61…72 an hour pad, J a connector, anything else is left alone; an unsplittable reference fails |
| Cathode.CathodePad | makeStudioClock.py:518-601 | fails iff the reference cannot be split; D ≤ 60 takes the seconds route, D 61…72 the hour route, J the connector route, all at the net's ring, and anything else nothing; a route is on the pad's net and empty iff the pad is left alone |
| Cathode.PadRoutes | makeStudioClock.py:518-601 | the routes of a net's pads fail iff some reference cannot be split, and are on the net when all pads are |
| Cathode.PadRoutesInOrder | makeStudioClock.py:518-601 | a net's pad routes are each pad's route, one after another in pad order |
| Cathode.CathodeNet | makeStudioClock.py:511-601 | a cathode net fails iff its name has no number, it is empty, or a reference cannot be split; it is the 61 edges of its back ring followed by its pads' routes, and stays on its net |
| Cathode.CathodeNets | makeStudioClock.py:511-601 | routing every cathode net fails iff one net fails, at the first failing net, and holds every item of every net's route |
| Cathode.CathodeNetsInOrder | makeStudioClock.py:511-601 | the cathode routing is each net's routing, one after another in net order |
| DigitBus.PadsByNumber | makeStudioClock.py:420-422 | a digit's pads keyed by number: one key per pad number used, each mapping to a pad of that number |
| DigitBus.PadsByNumberOrder | makeStudioClock.py:420-422 | the keys are the pad numbers in the order of the first pad carrying each |
| DigitBus.PadsByNumberLast | makeStudioClock.py:420-422 | each number maps to the last pad carrying it: a later assignment overwrites an earlier one |
| DigitBus.DigitPads | makeStudioClock.py:419-424 | fails iff pad 3 or pad 8 is missing; the table holds every other pad number and nothing else |
| DigitBus.DigitPadsOrder | makeStudioClock.py:419-427 | the table lists the pad numbers other than 3 and 8 in the order of their first pad, the order the staple loop then follows |
| DigitBus.DigitPadsLast | makeStudioClock.py:419-424 | in the table, each number other than 3 and 8 maps to the last pad carrying it |
| DigitBus.StaplePair | makeStudioClock.py:428-440 | a staple fails iff a pad or the net's distance is missing or the nets differ; it is the staple at 1.4 × the table distance |
| DigitBus.StapleStep | makeStudioClock.py:428-440 | one staple emits exactly the staple's items and records its outer via under its net, replacing an earlier via of that net and changing no other |
| DigitBus.StapleRound | makeStudioClock.py:428-440 | a round fails iff a staple of digits 1–2 or 3–4 cannot be routed; otherwise it emits the 1–2 staple then the 3–4 staple, ten items, and records both outer vias in that order, losing no recorded net |
| DigitBus.Staples | makeStudioClock.py:428-440 | the staple loop gives ten items per pad number, all on recorded nets, each a net of the table; StaplesSucceed, StaplesInOrder and StaplesRecord fix its failure, items and vias |
| DigitBus.StaplesSucceed | makeStudioClock.py:428-440 | the staple loop fails iff, for some pad number, one of its two staples cannot be routed |
| DigitBus.StaplesInOrder | makeStudioClock.py:428-440 | the staple loop emits, pad number by pad number in key order, the 1–2 staple and then the 3–4 staple |
| DigitBus.StaplesRecord | makeStudioClock.py:428-442 | the loop leaves each net with the outer via of its last staple, the nets in the order they were first recorded, as the independent fold StapleVias records them |
| DigitBus.MaxX | makeStudioClock.py:442 | `max` fails on no vias, otherwise returns an attained x not below any other |
| DigitBus.ToColumn | makeStudioClock.py:444-455 | a via strictly inside the outer column moves horizontally out to it on its own side; others stay, and so does a via on the y axis, whose sign is 0 |
| DigitBus.BusEscape | makeStudioClock.py:443-468 | fails iff the net has no number or the outer column is at 0; a via inside the column first gets a back track and a via at the column, then a front track to its ring and a via |
| DigitBus.BusEscapes | makeStudioClock.py:443-468 | the escapes fail iff a net has no number or the column is at 0 with vias to escape, and stay on the recorded nets |
| DigitBus.BusEscapesInOrder | makeStudioClock.py:443-468 | the escapes are each recorded via's escape, one after another in the order the nets were first recorded |
| DigitBus.OuterBus | makeStudioClock.py:442-468 | the outer bus fails iff there are no vias, the max x is 0 or a net has no number, and stays on the recorded nets |
| DigitBus.OuterBusInOrder | makeStudioClock.py:442-468 | the outer bus is every recorded via's escape in net order, with the column at the largest via x |
| DigitBus.K15Vias | makeStudioClock.py:471-475 | a position is listed iff it is a k15 via on the board |
| DigitBus.K15ViasInOrder | makeStudioClock.py:471-475 | the k15 vias are listed in board order, one per k15 via |
| DigitBus.SeparatorPads | makeStudioClock.py:481-486 | a pad is listed iff it is a k15 pad of a `D` part |
| DigitBus.SeparatorPadsInOrder | makeStudioClock.py:481-486 | the separator pads are listed in board pad order |
| DigitBus.Drops | makeStudioClock.py:501-508 | each separator pad gets a via on the bus column at its height and a front track to it |
| DigitBus.BusStart | makeStudioClock.py:476-480 | the bus starts at the left of the first two k15 vias, the second on a tie |
| DigitBus.K15Bus | makeStudioClock.py:470-508 | fails with fewer than two k15 vias or no separator pads; back track to the column, up it to the highest separator pad, then the drops |
| DigitBus.K15BusShape | makeStudioClock.py:470-508 | the whole k15 bus is on k15, and its two back tracks form an L |
| DigitBus.LShape | makeStudioClock.py:487-508 | two joined k15 tracks followed by the drops are all on k15 |
| DigitBus.DigitTables | makeStudioClock.py:419-424 | the digit tables fail iff some digit lacks pad 3 or 8 |
| DigitBus.CathodeBusWith | makeStudioClock.py:419-468 | fails with MissingKey if a digit lacks pad 3 or 8; otherwise succeeds iff the staple loop over the first digit's pad numbers and the outer bus of its final vias both succeed, and is the staples followed by that outer bus, on nets of the table only |
| DigitBus.CathodeBus | makeStudioClock.py:401-468 | with the script's table the bus touches only the nets k0…k15, and fails with MissingKey if a digit lacks pad 3 or 8; its structure is that of CathodeBusWith, of which it is the instance for this table |
| Anode.SegmentChain | makeStudioClock.py:617-623 | all but the last member are chained on the front, member i to member i + 1 |
| Anode.ArcTail | makeStudioClock.py:624-642 | an arc's tail fails iff the arc has no track; otherwise it adds a front track to the arc's start, a via there and a via at the arc's end, which it returns |
| Anode.SegmentTail | makeStudioClock.py:624-665 | segments 1 and 2 add nothing; segment 0 adds the back arc 13.5 → 26.5 on ring 15 as the script emits it, the front track to its start, and vias at its start and end; segment 3 the same for the arc 46.5 → 33.5; each returns its escape start |
| Anode.Segment | makeStudioClock.py:608-666 | a segment fails iff it has fewer than 16 members or its escape start is on the vertical axis; it is the member chain, then the segment's arc tail, then the escape to member 15 |
| Anode.Nearest | makeStudioClock.py:687-698 | the nearer candidate, the second on a tie |
| Anode.A4Pads | makeStudioClock.py:690-692 | a pad is kept iff it is a J2 pad on a4 |
| Anode.A4PadsInOrder | makeStudioClock.py:690-692 | the a4 pads are kept in J2's pad order |
| Anode.InnerEscape | makeStudioClock.py:693-700 | one a4 pad: a via at the nearer arc end, then the escape to the pad |
| Anode.SpokedRing | makeStudioClock.py:675-682 | the front ring, a front spoke at 29.5 in to the inner radius, and a via at its inner end |
| Anode.InnerHead | makeStudioClock.py:675-685 | the spoked ring followed by the twelve back edges of the inner arc, edge i from vertex 36 − i to vertex 35 − i |
| Anode.InnerEscapes | makeStudioClock.py:690-700 | fails iff some a4 pad's nearer arc end is on the vertical axis; every a4 pad gets its via |
| Anode.InnerEscapesInOrder | makeStudioClock.py:690-700 | the escapes are each a4 pad's via and escape, one after another in pad order |
| Anode.InnerRing | makeStudioClock.py:667-700 | fails on an empty net or a missing J2, and otherwise iff an a4 pad's nearer arc end is on the vertical axis; it is the ring, spoke and inner arc 36 → 24 followed by the a4 pads' escapes, each from the nearer arc end |
| Anode.AnodeNet | makeStudioClock.py:605-751 | dispatch in order: ≤ 3 segment, 4 inner ring, 50/51/60/61 bridge, 11/21 dogleg, anything else nothing |
| Anode.AnodeNets | makeStudioClock.py:605-751 | routing every anode net fails iff one net fails, at the first failing net, and holds every item of every net's route |
| Anode.AnodeNetsInOrder | makeStudioClock.py:605-751 | the anode routing is each net's routing, one after another in net order |

## Left out

- The `pcbnew` plumbing is not modelled. This covers loading and saving the board, deleting old tracks and drawings, and collecting layer names. Track widths and via drills are fixed constants and are not represented. Progress printing is left out too.
- Floating-point trigonometry is not modelled; `Geometry.Trig` supplies its results as opaque functions. This covers the sine/cosine placement, `get_ring_intersection` with its tangents, the pin ray of a connector pad and the `sqrt` radius of a pad. So nothing about positions is proved beyond where those functions are applied.
- The rounding of `wxPointMM` and `wxPoint` to whole nanometres is not modelled. Coordinates are exact reals.
- `ClockFace.RingHit`: the result is stated for sides −1, 0 and 1 only. These are the only values the script passes: `int(np.sign(x))` or the constant 1.
- `Anode.Nearest`: compares squared distances where the script compares `sqrt` distances. `sqrt` is monotone, so the choice is the same.
- `Annotation.SplitAnnotation`: `\d` is taken as the ASCII digits 0–9. Python's `\d` also matches other Unicode decimal digits.
- Pad names are modelled as numbers (`Pad.number`). The script converts them with `int`, which would fail on a non-numeric name; every pad it converts on this board is numeric.
- Nets are identified by their short names. Net codes are not modelled.
- The local `f` in `radius_from_net_number` is never used, and the model leaves it out.
- `Cathode.HourCathode` and `Cathode.CathodePad`: an hour pad's radius is the opaque distance of the pad from the centre. A pad at the centre would give a radius of 0, and the model does not single it out.
- The collection of footprints into `modules` by reference (`sorted(pcb.GetModules())`) is not modelled. Its lookups of fixed references (`D1`…`D74`, `U1`…`U4`, `J1`, `J2`) are taken as given. Each routing function receives the pads or tables it reads.
- The k15 bus reads the board's track list. `DigitBus.K15Bus` takes that list as a parameter, in the order the tracks were added.
- The script runs the phases one after another in its main block: placement, outline, digit bus, k15 bus, cathode nets, anode nets. Each phase is modelled; no single function strings them together.
- `Templates.Bridge`: `value.remove(...)` mutates the net's pad list for later readers. The model returns the routed items only; nothing reads that list afterwards.

=== FILE: annotation.dfy ===
/** `regex_split_annotation`: a reference designator or net name such as
    `D37` or `k15` split into its alphabetic prefix and its number. The
    pattern `([/A-Za-z]*)(\d*)` is anchored at the start of the text and both
    groups may be empty; `int` of an empty digit group is the only way the
    split fails. */
module Annotation {
  import opened Wrappers

  predicate IsPrefixChar(c: char) {
    c == '/' || ('A' <= c <= 'Z') || ('a' <= c <= 'z')
  }

  predicate IsDigit(c: char) {
    '0' <= c <= '9'
  }

  /** Text that the prefix group could match entirely. */
  predicate IsPrefix(s: string) {
    forall i :: 0 <= i < |s| ==> IsPrefixChar(s[i])
  }

  predicate IsDigits(s: string) {
    forall i :: 0 <= i < |s| ==> IsDigit(s[i])
  }

  /** The length of the longest run of prefix characters at the head of `s`:
      the greedy first group of the pattern. */
  function PrefixLength(s: string): (n: nat)
    ensures n <= |s| && IsPrefix(s[..n])
    ensures n < |s| ==> !IsPrefixChar(s[n])
  {
    if |s| > 0 && IsPrefixChar(s[0]) then
      var n := 1 + PrefixLength(s[1..]);
      assert s[..n] == [s[0]] + s[1..][..n - 1];
      n
    else 0
  }

  /** The length of the longest run of decimal digits at the head of `s`. */
  function DigitLength(s: string): (n: nat)
    ensures n <= |s| && IsDigits(s[..n])
    ensures n < |s| ==> !IsDigit(s[n])
  {
    if |s| > 0 && IsDigit(s[0]) then
      var n := 1 + DigitLength(s[1..]);
      assert s[..n] == [s[0]] + s[1..][..n - 1];
      n
    else 0
  }

  function DigitValue(c: char): nat
    requires IsDigit(c)
  {
    (c - '0') as nat
  }

  function DigitChar(d: nat): (c: char)
    requires d < 10
    ensures IsDigit(c) && DigitValue(c) == d
  {
    ('0' as int + d) as char
  }

  /** The value `int` gives a run of decimal digits, leading zeros allowed. */
  function DigitsValue(s: string): nat
    requires IsDigits(s)
  {
    if |s| == 0 then 0
    else DigitsValue(s[..|s| - 1]) * 10 + DigitValue(s[|s| - 1])
  }

  /** The shortest decimal spelling of `n`, as `str` writes it. */
  function NatToDigits(n: nat): (s: string)
    ensures |s| > 0 && IsDigits(s)
    ensures DigitsValue(s) == n
  {
    if n < 10 then [DigitChar(n)]
    else
      var s := NatToDigits(n / 10) + [DigitChar(n % 10)];
      assert s[..|s| - 1] == NatToDigits(n / 10);
      s
  }

  /** `regex_split_annotation(s)`: the prefix and the number that follows it.
      Anything after the digits is ignored. */
  function SplitAnnotation(s: string): (r: Result<(string, nat)>)
    ensures r.Ok? <==> PrefixLength(s) < |s| && IsDigit(s[PrefixLength(s)])
    ensures r.Err? ==> r.error == NoDigits
    ensures r.Ok? ==>
      && IsPrefix(r.value.0) && r.value.0 <= s
      && |r.value.0| < |s| && IsDigit(s[|r.value.0|])
  {
    var n := PrefixLength(s);
    var rest := s[n..];
    var k := DigitLength(rest);
    if k == 0 then Err(NoDigits)
    else Ok((s[..n], DigitsValue(rest[..k])))
  }

  /** Splitting a prefix, the decimal spelling of a number and a tail that
      does not continue the number returns the prefix and the number. */
  lemma {:induction false} SplitRoundTrip(prefix: string, n: nat, tail: string)
    requires IsPrefix(prefix)
    requires |tail| > 0 ==> !IsDigit(tail[0])
    ensures SplitAnnotation(prefix + NatToDigits(n) + tail) == Ok((prefix, n))
  {
    var d := NatToDigits(n);
    var s := prefix + d + tail;
    PrefixRun(prefix, d + tail);
    assert s == prefix + (d + tail);
    assert s[|prefix|..] == d + tail;
    DigitRun(d, tail);
    assert (d + tail)[..|d|] == d;
    assert s[..|prefix|] == prefix;
  }

  /** The prefix run of `p + rest` is exactly `p` when `rest` starts with a
      character the prefix group cannot take. */
  lemma {:induction false} PrefixRun(p: string, rest: string)
    requires IsPrefix(p)
    requires |rest| > 0 && !IsPrefixChar(rest[0])
    ensures PrefixLength(p + rest) == |p|
    decreases |p|
  {
    if |p| > 0 {
      assert (p + rest)[1..] == p[1..] + rest;
      PrefixRun(p[1..], rest);
    } else {
      assert p + rest == rest;
    }
  }

  /** The digit run of `d + tail` is exactly `d` when `tail` does not start
      with a digit. */
  lemma {:induction false} DigitRun(d: string, tail: string)
    requires IsDigits(d)
    requires |tail| > 0 ==> !IsDigit(tail[0])
    ensures DigitLength(d + tail) == |d|
    decreases |d|
  {
    if |d| > 0 {
      assert (d + tail)[1..] == d[1..] + tail;
      DigitRun(d[1..], tail);
    } else {
      assert d + tail == tail;
    }
  }

  /** A name whose prefix is followed by something other than a digit has no
      number, and the split fails. */
  lemma SplitWithoutNumber(prefix: string, tail: string)
    requires IsPrefix(prefix)
    requires |tail| == 0 || (!IsPrefixChar(tail[0]) && !IsDigit(tail[0]))
    ensures SplitAnnotation(prefix + tail) == Err(NoDigits)
  {
    if |tail| > 0 {
      PrefixRun(prefix, tail);
      assert (prefix + tail)[|prefix|] == tail[0];
    } else {
      assert prefix + tail == prefix;
      PrefixAll(prefix);
    }
  }

  /** Text made only of prefix characters is one prefix run. */
  lemma {:induction false} PrefixAll(p: string)
    requires IsPrefix(p)
    ensures PrefixLength(p) == |p|
    decreases |p|
  {
    if |p| > 0 {
      PrefixAll(p[1..]);
    }
  }

  /** A name spelled as a prefix and a number splits into exactly those. */
  lemma SplitName(prefix: string, n: nat, name: string)
    requires IsPrefix(prefix) && name == prefix + NatToDigits(n)
    ensures SplitAnnotation(name) == Ok((prefix, n))
  {
    SplitRoundTrip(prefix, n, "");
    assert prefix + NatToDigits(n) + "" == name;
  }

  /** A digit's name: `D37` is digit 37. */
  lemma SplitDigitName()
    ensures SplitAnnotation("D37") == Ok(("D", 37))
  {
    assert NatToDigits(37) == "37";
    SplitName("D", 37, "D37");
  }

  /** A bus name: `k15` is cathode bus 15. */
  lemma SplitBusName()
    ensures SplitAnnotation("k15") == Ok(("k", 15))
  {
    assert NatToDigits(15) == "15";
    SplitName("k", 15, "k15");
  }

  /** An anode net: `a50` is anode 50. */
  lemma SplitAnodeName()
    ensures SplitAnnotation("a50") == Ok(("a", 50))
  {
    assert NatToDigits(50) == "50";
    SplitName("a", 50, "a50");
  }

  /** A connector: `J2` is connector 2. */
  lemma SplitConnectorName()
    ensures SplitAnnotation("J2") == Ok(("J", 2))
  {
    assert NatToDigits(2) == "2";
    SplitName("J", 2, "J2");
  }
}

=== FILE: anode.dfy ===
/** The anode routing. Anode nets 0–3 feed the four quarter segments of the
    LED ring, net 4 the inner hour ring, nets 50, 51, 60 and 61 the colon
    and decimal points (a bridge), and nets 11 and 21 a dogleg; every other
    anode net is left alone. */
module Anode {
  import opened Wrappers
  import opened Geometry
  import opened ClockFace
  import opened Annotation
  import opened OrderedDict
  import opened Nets
  import opened Templates
  import opened Arc
  import opened Cathode

  /** The front tracks joining consecutive members of a segment net, all but
      the last member: member i to member i + 1 for i < |value| − 2. */
  function SegmentChain(value: seq<Pad>): (c: seq<Item>)
    ensures |c| == if |value| >= 2 then |value| - 2 else 0
    ensures forall i :: 0 <= i < |c| ==> c[i] == Track(value[i].pos, value[i + 1].pos, value[i].net, Front)
    ensures Chained(c) && TracksOn(c, Front)
  {
    if |value| < 3 then []
    else
      var rest := SegmentChain(value[1..]);
      assert forall i :: 0 <= i < |value| - 1 ==> value[1..][i] == value[i + 1];
      [Track(value[0].pos, value[1].pos, value[0].net, Front)] + rest
  }

  /** The tail of a segment that reaches the connector by arc `a`: the arc,
      a front track from `from` to the start of the arc, a via there, and a
      via at its end, which is where the escape to the connector begins. The
      script takes both ends from the pair the arc returns, which is empty
      when the arc has no track. */
  function ArcTail(a: ArcRoute, from: Point, net: string): (r: Result<(seq<Item>, Point)>)
    requires Joined(a)
    ensures r.Ok? <==> |a.Path()| > 0
    ensures r.Err? ==> r.error == NoneDereference
    ensures r.Ok? ==>
      var p := a.Path();
      var e := a.Emitted();
      var (it, pos) := r.value;
      && |it| == |e| + 3
      && it[..|e|] == e
      && it[|e|] == Track(from, p[0].start, net, Front)
      && it[|e| + 1] == Via(p[0].start, net)
      && it[|e| + 2] == Via(p[|p| - 1].end, net)
      && pos == p[|p| - 1].end
  {
    JoinedReturns(a);
    JoinedPath(a);
    if a.First().None? || a.Last().None? then Err(NoneDereference)
    else
      var first := a.First().value;
      var last := a.Last().value;
      var t0 := Track(from, first.start, net, Front);
      var it := a.Emitted() + [t0, Via(t0.end, net), Via(last.end, net)];
      assert it[..|a.Emitted()|] == a.Emitted();
      Ok((it, last.end))
  }

  /** Where the escape of segment `num` to the connector begins: the end of
      the ring-15 arc for segments 0 (26.5) and 3 (33.5), a point of the LED
      ring at 28.5 and 31.5 for segments 1 and 2. */
  function SegmentEnd(t: Trig, num: nat, radius: real): Point
    requires num <= 3
  {
    if num == 0 then ByPosition(t, CathodeRadius(15), 26.5)
    else if num == 1 then ByPosition(t, radius, 28.5)
    else if num == 2 then ByPosition(t, radius, 31.5)
    else ByPosition(t, CathodeRadius(15), 33.5)
  }

  /** The extra tracks and the escape start of segment `num`. */
  function SegmentTail(t: Trig, num: nat, radius: real, net: string): (r: (seq<Item>, Point))
    requires num <= 3
    ensures r.1 == SegmentEnd(t, num, radius)
    ensures num == 1 || num == 2 ==> r.0 == []
    ensures num == 0 ==> |r.0| == 17 && r.0[14] == Track(ByPosition(t, radius, 13.5), ByPosition(t, CathodeRadius(15), 13.5), net, Front)
    ensures num == 3 ==> |r.0| == 19 && r.0[16] == Track(ByPosition(t, radius, 46.5), ByPosition(t, CathodeRadius(15), 46.5), net, Front)
    ensures num == 0 ==>
      var a := Arc.Arc(t, CathodeRadius(15), 13.5, 26.5, net, Back);
      && a.Ok? && |r.0| == 17
      && r.0[..14] == a.value.Emitted()
      && r.0[15] == Via(ByPosition(t, CathodeRadius(15), 13.5), net)
      && r.0[16] == Via(SegmentEnd(t, 0, radius), net)
    ensures num == 3 ==>
      var a := Arc.Arc(t, CathodeRadius(15), 46.5, 33.5, net, Back);
      && a.Ok? && |r.0| == 19
      && r.0[..16] == a.value.Emitted()
      && r.0[17] == Via(ByPosition(t, CathodeRadius(15), 46.5), net)
      && r.0[18] == Via(SegmentEnd(t, 3, radius), net)
  {
    var r15 := CathodeRadius(15);
    if num == 0 then
      SegmentZeroArc(t, r15, net, Back);
      ArcJoined(t, r15, 13.5, 26.5, net, Back);
      ArcTail(Arc.Arc(t, r15, 13.5, 26.5, net, Back).value, ByPosition(t, radius, 13.5), net).value
    else if num == 3 then
      SegmentThreeArc(t, r15, net, Back);
      ArcJoined(t, r15, 46.5, 33.5, net, Back);
      ArcTail(Arc.Arc(t, r15, 46.5, 33.5, net, Back).value, ByPosition(t, radius, 46.5), net).value
    else ([], SegmentEnd(t, num, radius))
  }

  /** A quarter segment, anode net 0–3: the members chained on the front,
      the segment's own tail, and the escape from its end to member 15, the
      connector pad. */
  function Segment(t: Trig, num: nat, value: seq<Pad>): (r: Result<seq<Item>>)
    requires num <= 3
    ensures r.Ok? <==> |value| >= 16 && SegmentEnd(t, num, t.norm(value[0].pos)).x != 0.0
    ensures r.Err? ==> r.error == if |value| < 16 then IndexOutOfRange else DivisionByZero
    ensures r.Ok? ==>
      var it := r.value;
      var n := |value| - 2;
      && |it| >= n + 3
      && it[..n] == SegmentChain(value)
      && it[|it| - 3..] == Escape(SegmentEnd(t, num, t.norm(value[0].pos)), value[15].pos, value[0].net).value
      && it[|it| - 1].end == value[15].pos
    ensures r.Ok? ==>
      var radius := t.norm(value[0].pos);
      r.value == SegmentChain(value) + SegmentTail(t, num, radius, value[|value| - 1].net).0
        + Escape(SegmentEnd(t, num, radius), value[15].pos, value[0].net).value
  {
    if |value| < 16 then Err(IndexOutOfRange)
    else
      var con := value[15].pos;
      var radius := t.norm(value[0].pos);
      var chain := SegmentChain(value);
      var (extra, pos) := SegmentTail(t, num, radius, value[|value| - 1].net);
      var esc :- Escape(pos, con, value[0].net);
      var it := chain + extra + esc;
      assert it[..|chain|] == chain;
      assert it[|it| - 3..] == esc;
      Ok(it)
  }

  /** Of two candidate points, the one nearer to `p`; the second on a tie.
      The script compares Euclidean distances, which order as their
      squares do. */
  function Nearest(p: Point, a: Point, b: Point): (q: Point)
    ensures q == a || q == b
    ensures DistanceSquared(p, q) <= DistanceSquared(p, a) && DistanceSquared(p, q) <= DistanceSquared(p, b)
    ensures DistanceSquared(p, a) == DistanceSquared(p, b) ==> q == b
  {
    if DistanceSquared(p, a) < DistanceSquared(p, b) then a else b
  }

  /** The connector pads of J2 on net a4. */
  function A4Pads(pads: seq<Pad>): (ps: seq<Pad>)
    ensures forall p :: p in ps <==> p in pads && p.net == "a4"
  {
    if |pads| == 0 then []
    else
      var rest := A4Pads(pads[1..]);
      assert forall p :: p in pads <==> p == pads[0] || p in pads[1..];
      if pads[0].net == "a4" then [pads[0]] + rest else rest
  }

  /** The a4 pads are kept in the connector's pad order. */
  lemma {:induction false} A4PadsInOrder(pads: seq<Pad>)
    ensures A4Pads(pads) == Flatten(seq(|pads|, i requires 0 <= i < |pads| => if pads[i].net == "a4" then [pads[i]] else []))
  {
    if |pads| > 0 {
      A4PadsInOrder(pads[1..]);
      var ss := seq(|pads|, i requires 0 <= i < |pads| => if pads[i].net == "a4" then [pads[i]] else []);
      assert ss[1..] == seq(|pads[1..]|, i requires 0 <= i < |pads[1..]| => if pads[1..][i].net == "a4" then [pads[1..][i]] else []);
    }
  }

  /** One a4 pad of J2: a via at the nearer end of the inner arc and the
      escape from there to the pad. */
  function InnerEscape(t: Trig, a: Point, b: Point, p: Pad): (r: Result<seq<Item>>)
    ensures r.Ok? <==> Nearest(p.pos, a, b).x != 0.0
    ensures r.Err? ==> r.error == DivisionByZero
    ensures r.Ok? ==>
      && |r.value| == 4 && OnNet(r.value, p.net)
      && r.value[0] == Via(Nearest(p.pos, a, b), p.net)
      && r.value[1..] == Escape(Nearest(p.pos, a, b), p.pos, p.net).value
  {
    var q := Nearest(p.pos, a, b);
    var esc :- Escape(q, p.pos, p.net);
    var it := [Via(q, p.net)] + esc;
    assert it[1..] == esc;
    Ok(it)
  }

  /** A front ring of radius `radius`, then a front spoke at position 29.5
      from it in to radius `inner`, and a via at the spoke's inner end. */
  function SpokedRing(t: Trig, radius: real, inner: real, ringNet: string, net: string): (it: seq<Item>)
    ensures |it| == 63
    ensures it[..61] == Ring(t, radius, ringNet, Front)
    ensures it[61] == Track(ByPosition(t, radius, 29.5), Polar(t, inner, 29.5), net, Front)
    ensures it[62] == Via(Polar(t, inner, 29.5), net)
  {
    var spoke := Track(ByPosition(t, radius, 29.5), Polar(t, inner, 29.5), net, Front);
    Ring(t, radius, ringNet, Front) + [spoke, Via(spoke.end, net)]
  }

  /** The fixed part of the inner hour ring: the spoked ring, then the twelve
      back edges of the arc from 36 down to 24 at the inner radius. */
  function InnerHead(t: Trig, radius: real, inner: real, ringNet: string, net: string): (it: seq<Item>)
    ensures |it| == 75
    ensures it[..63] == SpokedRing(t, radius, inner, ringNet, net)
    ensures it[63] == Track(Vertex(t, inner, 36), Vertex(t, inner, 35), net, Back)
    ensures it[74] == Track(Vertex(t, inner, 25), Vertex(t, inner, 24), net, Back)
    ensures forall i :: 0 <= i < 12 ==> it[63..][i] == Track(Vertex(t, inner, 36 - i), Vertex(t, inner, 35 - i), net, Back)
  {
    InnerArc(t, inner, net, Back);
    var head := SpokedRing(t, radius, inner, ringNet, net);
    var edges := Arc.Arc(t, inner, 36.0, 24.0, net, Back).value.edges;
    assert (head + edges)[..63] == head;
    assert (head + edges)[63..] == edges;
    head + edges
  }

  /** The escapes of the a4 pads of J2, each from the nearer of `a`, `b`. */
  function InnerEscapes(t: Trig, a: Point, b: Point, j2: seq<Pad>): (r: Result<seq<Item>>)
    ensures r.Ok? <==> forall p :: p in A4Pads(j2) ==> Nearest(p.pos, a, b).x != 0.0
    ensures r.Err? ==> r.error == DivisionByZero
    ensures r.Ok? ==> forall p :: p in j2 && p.net == "a4" ==> Via(Nearest(p.pos, a, b), p.net) in r.value
  {
    var ps := A4Pads(j2);
    var escapes :- MapAll(p => InnerEscape(t, a, b, p), ps);
    EscapeVias(t, a, b, ps, escapes);
    Ok(Flatten(escapes))
  }

  /** Each escape starts with its via, so the flattened escapes hold them all. */
  lemma EscapeVias(t: Trig, a: Point, b: Point, ps: seq<Pad>, escapes: seq<seq<Item>>)
    requires |escapes| == |ps|
    requires forall i :: 0 <= i < |ps| ==> InnerEscape(t, a, b, ps[i]) == Ok(escapes[i])
    ensures forall p :: p in ps ==> Via(Nearest(p.pos, a, b), p.net) in Flatten(escapes)
  {
    forall p | p in ps
      ensures Via(Nearest(p.pos, a, b), p.net) in Flatten(escapes)
    {
      var i :| 0 <= i < |ps| && ps[i] == p;
      assert InnerEscape(t, a, b, ps[i]) == Ok(escapes[i]);
      assert escapes[i][0] in escapes[i];
    }
  }

  /** The escapes of the a4 pads of J2 are those of each pad, in pad order. */
  lemma InnerEscapesInOrder(t: Trig, a: Point, b: Point, j2: seq<Pad>)
    ensures InnerEscapes(t, a, b, j2).Ok? ==>
      var ps := A4Pads(j2);
      InnerEscapes(t, a, b, j2).value == Flatten(seq(|ps|, i requires 0 <= i < |ps| => InnerEscape(t, a, b, ps[i]).ValueOr([])))
  {
    var ps := A4Pads(j2);
    var escapes := MapAll(p => InnerEscape(t, a, b, p), ps);
    if escapes.Ok? {
      assert escapes.value == seq(|ps|, i requires 0 <= i < |ps| => InnerEscape(t, a, b, ps[i]).ValueOr([]));
    }
  }

  /** The inner hour ring, anode net 4: the fixed head through the first
      member (ring −2 is the inner radius), then for each a4 pad of
      connector J2 a via at the nearer end of the inner arc, the second end
      on a tie, and an escape from there to the pad. */
  function InnerRing(t: Trig, value: seq<Pad>, connectors: Dict<string, seq<Pad>>): (r: Result<seq<Item>>)
    ensures r.Ok? ==> |value| > 0 && Get(connectors, "J2").Some?
    ensures |value| == 0 ==> r == Err(IndexOutOfRange)
    ensures |value| > 0 && Get(connectors, "J2").None? ==> r == Err(MissingKey)
    ensures r.Ok? ==>
      var inner := CathodeRadius(-2);
      && |r.value| >= 75
      && r.value[..75] == InnerHead(t, t.norm(value[0].pos), inner, value[0].net, value[|value| - 1].net)
      && r.value[..61] == Ring(t, t.norm(value[0].pos), value[0].net, Front)
      && forall p :: p in Get(connectors, "J2").value && p.net == "a4" ==>
           Via(Nearest(p.pos, Vertex(t, inner, 36), Vertex(t, inner, 24)), p.net) in r.value
    ensures r.Ok? <==>
      && |value| > 0 && Get(connectors, "J2").Some?
      && var inner := CathodeRadius(-2);
         InnerEscapes(t, Vertex(t, inner, 36), Vertex(t, inner, 24), Get(connectors, "J2").value).Ok?
    ensures r.Ok? ==>
      var inner := CathodeRadius(-2);
      r.value == InnerHead(t, t.norm(value[0].pos), inner, value[0].net, value[|value| - 1].net)
        + InnerEscapes(t, Vertex(t, inner, 36), Vertex(t, inner, 24), Get(connectors, "J2").value).value
  {
    if |value| == 0 then Err(IndexOutOfRange)
    else
      var inner := CathodeRadius(-2);
      var net := value[|value| - 1].net;
      var head := InnerHead(t, t.norm(value[0].pos), inner, value[0].net, net);
      if Get(connectors, "J2").None? then Err(MissingKey)
      else
        var j2 := Get(connectors, "J2").value;
        var escapes :- InnerEscapes(t, head[63].start, head[74].end, j2);
        PrefixKept(head, escapes, 61, 63);
        Ok(head + escapes)
  }

  /** Appending keeps every prefix of `head` and adds every element of `tail`. */
  lemma PrefixKept<T>(head: seq<T>, tail: seq<T>, n: nat, m: nat)
    requires n <= m <= |head|
    ensures (head + tail)[..|head|] == head
    ensures (head + tail)[..n] == head[..m][..n]
    ensures forall x :: x in tail ==> x in head + tail
  {
    assert (head + tail)[..|head|] == head;
  }

  /** The routing of one anode net, chosen by its number. */
  function AnodeNet(t: Trig, name: string, value: seq<Pad>, connectors: Dict<string, seq<Pad>>)
    : (r: Result<seq<Item>>)
    ensures SplitAnnotation(name).Err? ==> r == Err(NoDigits)
    ensures SplitAnnotation(name).Ok? ==>
      var num := SplitAnnotation(name).value.1;
      && (num <= 3 ==> r == Segment(t, num, value))
      && (num == 4 ==> r == InnerRing(t, value, connectors))
      && (num in {50, 51, 60, 61} ==> r == Bridge(value))
      && (num in {11, 21} ==> r == Dogleg(value))
      && (!(num <= 4 || num in {11, 21, 50, 51, 60, 61}) ==> r == Ok([]))
  {
    var (_, num) :- SplitAnnotation(name);
    if num <= 3 then Segment(t, num, value)
    else if num == 4 then InnerRing(t, value, connectors)
    else if num in {50, 51, 60, 61} then Bridge(value)
    else if num in {11, 21} then Dogleg(value)
    else Ok([])
  }

  /** The anode routing is every anode net's routing, in net order. */
  lemma AnodeNetsInOrder(t: Trig, g: Nets, connectors: Dict<string, seq<Pad>>)
    ensures AnodeNets(t, g, connectors).Ok? ==>
      AnodeNets(t, g, connectors).value ==
        Flatten(seq(|g|, i requires 0 <= i < |g| => AnodeNet(t, g[i].0, g[i].1, connectors).ValueOr([])))
  {
    var routes := MapAll((e: (string, seq<Pad>)) => AnodeNet(t, e.0, e.1, connectors), g);
    if routes.Ok? {
      assert routes.value == seq(|g|, i requires 0 <= i < |g| => AnodeNet(t, g[i].0, g[i].1, connectors).ValueOr([]));
    }
  }

  /** The anode routing of every anode net, in net order. */
  function AnodeNets(t: Trig, g: Nets, connectors: Dict<string, seq<Pad>>): (r: Result<seq<Item>>)
    ensures r.Ok? <==> forall i :: 0 <= i < |g| ==> AnodeNet(t, g[i].0, g[i].1, connectors).Ok?
    ensures r.Err? ==>
      exists i :: 0 <= i < |g| && AnodeNet(t, g[i].0, g[i].1, connectors) == Err(r.error)
        && forall j :: 0 <= j < i ==> AnodeNet(t, g[j].0, g[j].1, connectors).Ok?
    ensures r.Ok? ==> forall i, x :: 0 <= i < |g| && x in AnodeNet(t, g[i].0, g[i].1, connectors).value ==> x in r.value
  {
    var routes :- MapAll((e: (string, seq<Pad>)) => AnodeNet(t, e.0, e.1, connectors), g);
    Ok(Flatten(routes))
  }
}

=== FILE: arc.dfy ===
/** `add_track_arc` and `add_track_ring`: polygon arcs on a 60-gon as an
    integer walk over its vertices, with a partial chord at each fractional
    end. */
module Arc {
  import opened Wrappers
  import opened Geometry
  import opened ClockFace

  /** The vertex after `p` in the direction of the walk. */
  function Step(p: int, forward: bool): int {
    if forward then p + 1 else p - 1
  }

  /** The vertex `i` steps after `p` in the direction of the walk. */
  function Offset(p: int, i: int, forward: bool): int {
    if forward then p + i else p - i
  }

  /** `count` polygon edges, the first leaving vertex `from`, each one ending
      one vertex further in the direction of the walk. `corner(k)` is the
      point of vertex `k`. */
  function Walk(corner: int -> Point, from: int, count: nat, forward: bool, net: string, layer: Layer): (w: seq<Item>)
    ensures |w| == count
    decreases count
  {
    if count == 0 then []
    else
      [Track(corner(from), corner(Step(from, forward)), net, layer)]
      + Walk(corner, Step(from, forward), count - 1, forward, net, layer)
  }

  /** Edge `i` of a walk joins the vertices `i` and `i + 1` steps from its
      start. */
  lemma {:induction false} WalkAt(corner: int -> Point, from: int, count: nat, forward: bool, net: string, layer: Layer)
    ensures forall i {:trigger Walk(corner, from, count, forward, net, layer)[i]} :: 0 <= i < count ==>
      Walk(corner, from, count, forward, net, layer)[i]
      == Track(corner(Offset(from, i, forward)), corner(Offset(from, i + 1, forward)), net, layer)
    decreases count
  {
    if count > 0 {
      var w := Walk(corner, from, count, forward, net, layer);
      var next := Step(from, forward);
      var rest := Walk(corner, next, count - 1, forward, net, layer);
      WalkAt(corner, next, count - 1, forward, net, layer);
      assert w == [w[0]] + rest;
      forall i {:trigger w[i]} | 0 <= i < count
        ensures w[i] == Track(corner(Offset(from, i, forward)), corner(Offset(from, i + 1, forward)), net, layer)
      {
        if i > 0 {
          assert w[i] == rest[i - 1];
          assert Offset(next, i - 1, forward) == Offset(from, i, forward);
          assert Offset(next, i, forward) == Offset(from, i + 1, forward);
        }
      }
    }
  }

  /** The closed form of a walk makes it a chain of tracks. */
  lemma WalkChained(corner: int -> Point, from: int, count: nat, forward: bool, net: string, layer: Layer)
    ensures var w := Walk(corner, from, count, forward, net, layer);
      && Chained(w) && TracksOn(w, layer) && OnNet(w, net)
      && (count > 0 ==> w[0].start == corner(from)
                        && w[count - 1].end == corner(Offset(from, count, forward)))
  {
    var w := Walk(corner, from, count, forward, net, layer);
    WalkAt(corner, from, count, forward, net, layer);
    forall i {:trigger w[i]} | 0 <= i < count
      ensures w[i] == Track(corner(Offset(from, i, forward)), corner(Offset(from, i + 1, forward)), net, layer)
    {
    }
    if count > 0 {
      assert w[0] == Track(corner(Offset(from, 0, forward)), corner(Offset(from, 1, forward)), net, layer);
      assert w[count - 1]
        == Track(corner(Offset(from, count - 1, forward)), corner(Offset(from, count, forward)), net, layer);
    }
  }

  /** The vertices of the 60-gon of radius `r`, as a function of their index. */
  function Corners(t: Trig, r: real): int -> Point {
    k => Vertex(t, r, k)
  }

  /** The walk begins at numpy's integral part of the start position, moved
      one vertex on when a forward walk starts at a fractional position. */
  function FirstVertex(start: real, stop: real): int {
    if stop > start && Fractional(start) then Trunc(start) + 1 else Trunc(start)
  }

  /** The bound `numpy.arange` stops before. A backward walk to a fractional
      stop lowers it by one more vertex. */
  function WalkBound(start: real, stop: real): int {
    if stop > start then Trunc(stop)
    else if Fractional(stop) then Trunc(stop) - 1
    else Trunc(stop)
  }

  /** The number of whole polygon edges the walk emits. */
  function EdgeCount(start: real, stop: real): nat {
    var d := if stop > start then WalkBound(start, stop) - FirstVertex(start, stop)
             else FirstVertex(start, stop) - WalkBound(start, stop);
    if d > 0 then d else 0
  }

  function OptionList(o: Option<Item>): seq<Item> {
    if o.Some? then [o.value] else []
  }

  /** The tracks of one arc: the whole edges and the optional partial chords
      at a fractional start and a fractional stop. */
  datatype ArcRoute = ArcRoute(edges: seq<Item>, startChord: Option<Item>, stopChord: Option<Item>) {

    /** The tracks in the order the script adds them to the board: the
        edges, then the start chord, then the stop chord. */
    function Emitted(): seq<Item> {
      edges + OptionList(startChord) + OptionList(stopChord)
    }

    /** The same tracks in path order, from the start position to the stop
        position. */
    function Path(): seq<Item> {
      OptionList(startChord) + edges + OptionList(stopChord)
    }

    /** The first of the pair the script returns (`track_start`). */
    function First(): Option<Item> {
      if startChord.Some? then startChord
      else if |edges| > 0 then Some(edges[0])
      else None
    }

    /** The second of the pair the script returns (`track_stop`). */
    function Last(): Option<Item> {
      if stopChord.Some? then stopChord
      else if |edges| > 0 then Some(edges[|edges| - 1])
      else None
    }
  }

  /** `add_track_arc(r, start, stop, net, layer)`. The walk goes forward when
      `stop > start` and backward otherwise. A fractional end adds a chord
      between the exact ring point and the nearest walked vertex; when no
      edge was walked there is no vertex to join, and the script dereferences
      `None`. */
  function Arc(t: Trig, r: real, start: real, stop: real, net: string, layer: Layer): (res: Result<ArcRoute>)
    ensures res.Ok? <==> EdgeCount(start, stop) > 0 || (!Fractional(start) && !Fractional(stop))
    ensures res.Ok? ==>
      && |res.value.edges| == EdgeCount(start, stop)
      && (forall i {:trigger res.value.edges[i]} :: 0 <= i < |res.value.edges| ==>
            res.value.edges[i]
            == Track(Vertex(t, r, Offset(FirstVertex(start, stop), i, stop > start)),
                     Vertex(t, r, Offset(FirstVertex(start, stop), i + 1, stop > start)), net, layer))
    ensures res.Ok? ==>
      && (res.value.startChord.Some? <==> Fractional(start))
      && (res.value.startChord.Some? ==>
            res.value.startChord.value
            == Track(ByPosition(t, r, start), res.value.edges[0].start, net, layer))
    ensures res.Ok? ==>
      && (res.value.stopChord.Some? <==> Fractional(stop))
      && (res.value.stopChord.Some? ==>
            res.value.stopChord.value
            == Track(res.value.edges[|res.value.edges| - 1].end, ByPosition(t, r, stop), net, layer))
  {
    var forward := stop > start;
    var first := FirstVertex(start, stop);
    var count := EdgeCount(start, stop);
    var edges := Walk(Corners(t, r), first, count, forward, net, layer);
    if (Fractional(start) || Fractional(stop)) && count == 0 then
      Err(NoneDereference)
    else
      WalkAt(Corners(t, r), first, count, forward, net, layer);
      WalkChained(Corners(t, r), first, count, forward, net, layer);
      var startChord :=
        if Fractional(start) then Some(Track(ByPosition(t, r, start), edges[0].start, net, layer)) else None;
      var stopChord :=
        if Fractional(stop) then Some(Track(edges[count - 1].end, ByPosition(t, r, stop), net, layer)) else None;
      Ok(ArcRoute(edges, startChord, stopChord))
  }

  /** The whole edges of an arc form a chain from the first walked vertex to
      the last. */
  lemma ArcEdgesChained(t: Trig, r: real, start: real, stop: real, net: string, layer: Layer)
    requires Arc(t, r, start, stop, net, layer).Ok?
    ensures var e := Arc(t, r, start, stop, net, layer).value.edges;
      && Chained(e) && TracksOn(e, layer) && OnNet(e, net)
      && (|e| > 0 ==>
            && e[0].start == Vertex(t, r, FirstVertex(start, stop))
            && e[|e| - 1].end == Vertex(t, r, Offset(FirstVertex(start, stop), |e|, stop > start)))
  {
    var e := Arc(t, r, start, stop, net, layer).value.edges;
    var first := FirstVertex(start, stop);
    var forward := stop > start;
    forall i {:trigger e[i]} | 0 <= i < |e|
      ensures e[i] == Track(Vertex(t, r, Offset(first, i, forward)), Vertex(t, r, Offset(first, i + 1, forward)), net, layer)
    {
    }
  }

  /** The chords of a route join its edges: each present chord meets the
      walked edge next to it. */
  predicate Joined(a: ArcRoute) {
    && Chained(a.edges)
    && (a.startChord.Some? ==>
          |a.edges| > 0 && a.startChord.value.Track? && a.startChord.value.end == a.edges[0].start)
    && (a.stopChord.Some? ==>
          |a.edges| > 0 && a.stopChord.value.Track? && a.stopChord.value.start == a.edges[|a.edges| - 1].end)
  }

  /** A joined route is one chain in path order. */
  lemma JoinedPath(a: ArcRoute)
    requires Joined(a)
    ensures Chained(a.Path())
  {
    var s := OptionList(a.startChord);
    var e := a.edges;
    var z := OptionList(a.stopChord);
    assert a.Path() == s + e + z;
    var se := s + e;
    if s != [] {
      ChainedAppend(s, e);
    }
    assert Chained(se);
    if z != [] {
      assert se[|se| - 1] == e[|e| - 1];
      ChainedAppend(se, z);
    }
  }

  /** The script's emission order holds the same tracks as the path order,
      and the pair the script returns is the first and last track of the
      path. */
  lemma JoinedReturns(a: ArcRoute)
    requires Joined(a)
    ensures multiset(a.Emitted()) == multiset(a.Path())
    ensures a.First() == (if |a.Path()| > 0 then Some(a.Path()[0]) else None)
    ensures a.Last() == (if |a.Path()| > 0 then Some(a.Path()[|a.Path()| - 1]) else None)
  {
    var s := OptionList(a.startChord);
    var e := a.edges;
    var z := OptionList(a.stopChord);
    assert a.Path() == s + e + z;
    assert a.Emitted() == e + s + z;
  }

  /** Every track of a route is on `layer` and net `net`. */
  lemma EmittedOn(a: ArcRoute, net: string, layer: Layer)
    requires TracksOn(a.edges, layer) && OnNet(a.edges, net)
    requires a.startChord.Some? ==>
      a.startChord.value.Track? && a.startChord.value.layer == layer && a.startChord.value.net == net
    requires a.stopChord.Some? ==>
      a.stopChord.value.Track? && a.stopChord.value.layer == layer && a.stopChord.value.net == net
    ensures TracksOn(a.Emitted(), layer) && OnNet(a.Emitted(), net)
  {
    var e := a.edges;
    var c := OptionList(a.startChord) + OptionList(a.stopChord);
    var em := a.Emitted();
    assert em == e + c;
    forall i {:trigger em[i]} | 0 <= i < |em|
      ensures em[i].Track? && em[i].layer == layer && em[i].net == net
    {
      if i >= |e| {
        assert em[i] == c[i - |e|];
      }
    }
  }

  /** The chords of an arc join its edges, and all of its tracks are on its
      layer and net. */
  lemma ArcJoined(t: Trig, r: real, start: real, stop: real, net: string, layer: Layer)
    requires Arc(t, r, start, stop, net, layer).Ok?
    ensures var a := Arc(t, r, start, stop, net, layer).value;
      && Joined(a) && TracksOn(a.Emitted(), layer) && OnNet(a.Emitted(), net)
  {
    var a := Arc(t, r, start, stop, net, layer).value;
    ArcEdgesChained(t, r, start, stop, net, layer);
    EmittedOn(a, net, layer);
  }

  /** An arc is one chain of tracks on its layer and net, and the pair the
      script returns is the first and last track of that chain. */
  lemma ArcPath(t: Trig, r: real, start: real, stop: real, net: string, layer: Layer)
    requires Arc(t, r, start, stop, net, layer).Ok?
    ensures var a := Arc(t, r, start, stop, net, layer).value;
      && Chained(a.Path()) && TracksOn(a.Emitted(), layer) && OnNet(a.Emitted(), net)
      && multiset(a.Emitted()) == multiset(a.Path())
      && a.First() == (if |a.Path()| > 0 then Some(a.Path()[0]) else None)
      && a.Last() == (if |a.Path()| > 0 then Some(a.Path()[|a.Path()| - 1]) else None)
  {
    var a := Arc(t, r, start, stop, net, layer).value;
    ArcJoined(t, r, start, stop, net, layer);
    JoinedPath(a);
    JoinedReturns(a);
  }

  /** An arc runs from the exact start position to the exact stop position:
      an integral end is the vertex itself, a fractional one the ring point
      its chord reaches. */
  lemma ArcEnds(t: Trig, r: real, start: real, stop: real, net: string, layer: Layer)
    requires Arc(t, r, start, stop, net, layer).Ok?
    ensures var a := Arc(t, r, start, stop, net, layer).value;
      |a.Path()| > 0 ==>
      && a.Path()[0].start
         == (if Fractional(start) then ByPosition(t, r, start) else Vertex(t, r, Trunc(start)))
      && a.Path()[|a.Path()| - 1].end
         == (if Fractional(stop) then ByPosition(t, r, stop) else Vertex(t, r, Trunc(stop)))
  {
    var a := Arc(t, r, start, stop, net, layer).value;
    var p := a.Path();
    var e := a.edges;
    ArcEdgesChained(t, r, start, stop, net, layer);
    assert p == OptionList(a.startChord) + e + OptionList(a.stopChord);
    if |p| > 0 {
      if Fractional(start) {
        assert p[0] == a.startChord.value;
      } else {
        assert |e| > 0 && p[0] == e[0];
      }
      if Fractional(stop) {
        assert p[|p| - 1] == a.stopChord.value;
      } else {
        assert |e| > 0 && p[|p| - 1] == e[|e| - 1];
        // The walk ends on the bound `arange` stops before.
        assert Offset(FirstVertex(start, stop), |e|, stop > start) == Trunc(stop);
      }
    }
  }

  /** A forward arc between non-negative positions walks the edges
      `(p, p + 1)` from the first vertex at or after the start up to the last
      vertex at or before the stop. */
  lemma ForwardArc(t: Trig, r: real, start: real, stop: real, net: string, layer: Layer)
    requires 0.0 <= start < stop
    ensures Arc(t, r, start, stop, net, layer).Ok? <==> Ceil(start) < stop.Floor
    ensures Arc(t, r, start, stop, net, layer).Ok? ==>
      var edges := Arc(t, r, start, stop, net, layer).value.edges;
      && |edges| == stop.Floor - Ceil(start)
      && forall i :: 0 <= i < |edges| ==>
           edges[i] == Track(Vertex(t, r, Ceil(start) + i), Vertex(t, r, Ceil(start) + i + 1), net, layer)
  {
    TruncOfNonNegative(start);
    TruncOfNonNegative(stop);
    assert FirstVertex(start, stop) == Ceil(start);
    assert WalkBound(start, stop) == stop.Floor;
    var a := Arc(t, r, start, stop, net, layer);
    if a.Ok? {
      var edges := a.value.edges;
      forall i | 0 <= i < |edges|
        ensures edges[i] == Track(Vertex(t, r, Ceil(start) + i), Vertex(t, r, Ceil(start) + i + 1), net, layer)
      {
        assert edges[i] == Track(Vertex(t, r, Offset(Ceil(start), i, true)), Vertex(t, r, Offset(Ceil(start), i + 1, true)), net, layer);
      }
    }
  }

  /** A backward arc between non-negative positions walks the edges
      `(p, p − 1)` from the last vertex at or before the start down to one
      vertex above `WalkBound`, which for a fractional stop is two vertices
      below the stop's floor. */
  lemma BackwardArc(t: Trig, r: real, start: real, stop: real, net: string, layer: Layer)
    requires 0.0 <= stop <= start
    ensures var low := if Fractional(stop) then stop.Floor - 1 else stop.Floor;
      && (Arc(t, r, start, stop, net, layer).Ok? <==> start.Floor > low || !Fractional(start))
      && (Arc(t, r, start, stop, net, layer).Ok? ==>
           var edges := Arc(t, r, start, stop, net, layer).value.edges;
           && |edges| == (if start.Floor > low then start.Floor - low else 0)
           && forall i :: 0 <= i < |edges| ==>
                edges[i] == Track(Vertex(t, r, start.Floor - i), Vertex(t, r, start.Floor - i - 1), net, layer))
  {
    TruncOfNonNegative(start);
    TruncOfNonNegative(stop);
    var low := if Fractional(stop) then stop.Floor - 1 else stop.Floor;
    assert FirstVertex(start, stop) == start.Floor;
    assert WalkBound(start, stop) == low;
    assert EdgeCount(start, stop) == if start.Floor > low then start.Floor - low else 0;
    var a := Arc(t, r, start, stop, net, layer);
    if a.Ok? {
      var edges := a.value.edges;
      forall i | 0 <= i < |edges|
        ensures edges[i] == Track(Vertex(t, r, start.Floor - i), Vertex(t, r, start.Floor - i - 1), net, layer)
      {
        assert edges[i] == Track(Vertex(t, r, Offset(start.Floor, i, false)), Vertex(t, r, Offset(start.Floor, i + 1, false)), net, layer);
      }
    }
  }

  /** The backward walk to a fractional stop overshoots: its last whole edge
      ends at vertex `floor(stop) − 1`, two vertices past `ceil(stop)`, the
      last vertex before the stop position, and the stop chord runs back from
      there to the stop position. */
  lemma {:induction false} BackwardOvershoot(t: Trig, r: real, start: real, stop: real, net: string, layer: Layer)
    requires 0.0 <= stop <= start && Fractional(stop)
    ensures Arc(t, r, start, stop, net, layer).Ok?
    ensures var a := Arc(t, r, start, stop, net, layer).value;
      && |a.edges| == start.Floor - stop.Floor + 1
      && a.edges[|a.edges| - 1].end == Vertex(t, r, Ceil(stop) - 2)
      && a.stopChord == Some(Track(Vertex(t, r, Ceil(stop) - 2), ByPosition(t, r, stop), net, layer))
  {
    TruncOfNonNegative(stop);
    BackwardArc(t, r, start, stop, net, layer);
    var a := Arc(t, r, start, stop, net, layer).value;
    var n := |a.edges|;
    assert a.edges[n - 1].end == Vertex(t, r, start.Floor - (n - 1) - 1);
  }

  /** Sixty-one edges from vertex i to vertex i + 1 close the polygon: edge
      59 returns to the first vertex, and edge 60 repeats edge 0. */
  lemma ClosedRing(t: Trig, r: real, e: seq<Item>, net: string, layer: Layer)
    requires |e| == 61
    requires forall i {:trigger e[i]} :: 0 <= i < 61 ==> e[i] == Track(Vertex(t, r, i), Vertex(t, r, i + 1), net, layer)
    ensures Chained(e) && TracksOn(e, layer) && OnNet(e, net)
    ensures forall i :: 0 <= i < 61 ==> e[i].start == Vertex(t, r, i)
    ensures e[59].end == e[0].start
    ensures e[60] == e[0]
  {
    VertexPeriodic(t, r, 60);
    VertexPeriodic(t, r, 61);
  }

  /** The full ring `add_track_ring`: the forward arc from 0 to 61. */
  function Ring(t: Trig, r: real, net: string, layer: Layer): (ring: seq<Item>)
    ensures |ring| == 61
    ensures Chained(ring) && TracksOn(ring, layer) && OnNet(ring, net)
    ensures forall i :: 0 <= i < 61 ==> ring[i].start == Vertex(t, r, i)
    ensures ring[59].end == ring[0].start
    ensures ring[60] == ring[0]
  {
    ForwardArc(t, r, 0.0, 61.0, net, layer);
    assert Ceil(0.0) == 0 && (61.0).Floor == 61;
    var ring := Arc(t, r, 0.0, 61.0, net, layer).value.edges;
    ClosedRing(t, r, ring, net, layer);
    ring
  }

  /** The arc of anode net a0, from 13.5 to 26.5: twelve edges 14 → 26 and a
      chord at each end. */
  lemma SegmentZeroArc(t: Trig, r: real, net: string, layer: Layer)
    ensures Arc(t, r, 13.5, 26.5, net, layer).Ok?
    ensures var a := Arc(t, r, 13.5, 26.5, net, layer).value;
      && |a.edges| == 12 && |a.Emitted()| == 14
      && a.edges[0].start == Vertex(t, r, 14) && a.edges[11].end == Vertex(t, r, 26)
      && a.Path()[0].start == ByPosition(t, r, 13.5)
      && a.Path()[13].end == ByPosition(t, r, 26.5)
  {
    assert Trunc(13.5) == 13 && Trunc(26.5) == 26;
    ForwardArc(t, r, 13.5, 26.5, net, layer);
  }

  /** The arc of anode net a3, from 46.5 back to 33.5: fourteen edges
      46 → 32, then a chord from vertex 32 forward to 33.5. */
  lemma SegmentThreeArc(t: Trig, r: real, net: string, layer: Layer)
    ensures Arc(t, r, 46.5, 33.5, net, layer).Ok?
    ensures var a := Arc(t, r, 46.5, 33.5, net, layer).value;
      && |a.edges| == 14 && |a.Emitted()| == 16
      && a.edges[0].start == Vertex(t, r, 46) && a.edges[13].end == Vertex(t, r, 32)
      && a.Path()[0].start == ByPosition(t, r, 46.5)
      && a.Path()[15] == Track(Vertex(t, r, 32), ByPosition(t, r, 33.5), net, layer)
  {
    assert Trunc(46.5) == 46 && Trunc(33.5) == 33;
    BackwardOvershoot(t, r, 46.5, 33.5, net, layer);
    BackwardArc(t, r, 46.5, 33.5, net, layer);
  }

  /** The inner arc of anode net a4, from 36 back to 24: twelve edges and no
      chords. */
  lemma InnerArc(t: Trig, r: real, net: string, layer: Layer)
    ensures Arc(t, r, 36.0, 24.0, net, layer).Ok?
    ensures var a := Arc(t, r, 36.0, 24.0, net, layer).value;
      && |a.edges| == 12 && a.Emitted() == a.edges && a.Path() == a.edges
      && a.edges[0] == Track(Vertex(t, r, 36), Vertex(t, r, 35), net, layer)
      && a.edges[11] == Track(Vertex(t, r, 25), Vertex(t, r, 24), net, layer)
      && forall i :: 0 <= i < 12 ==> a.edges[i] == Track(Vertex(t, r, 36 - i), Vertex(t, r, 35 - i), net, layer)
  {
    BackwardArc(t, r, 36.0, 24.0, net, layer);
  }
}

=== FILE: cathode.dfy ===
/** The cathode routing of the ring LEDs: every cathode net gets a full ring
    on the back at the radius of its number, and each pad on the net is
    joined to that ring according to the part it belongs to: a seconds LED
    drops straight to the ring vertex of its position, an hour LED follows a
    short arc and a radial jog, and the connector escapes along the ray of
    its pin. */
module Cathode {
  import opened Wrappers
  import opened Geometry
  import opened ClockFace
  import opened Annotation
  import opened Nets
  import opened Arc
  import Placement

  /** The ring number of a cathode net: its number, except that `k15`, the
      separator net, gets the innermost ring −1. */
  function RingNumber(name: string): (r: Result<int>)
    ensures r.Ok? <==> SplitAnnotation(name).Ok?
    ensures r.Err? ==> r.error == NoDigits
    ensures r.Ok? ==> r.value == if name == "k15" then -1 else SplitAnnotation(name).value.1
  {
    var (_, num) :- SplitAnnotation(name);
    Ok(if name == "k15" then -1 else num)
  }

  /** The cathode net spelled `k<n>` rides ring n, except `k15`, which rides
      ring −1. */
  lemma RingNumberOfName(n: nat)
    ensures RingNumber("k" + NatToDigits(n)) == Ok(if n == 15 then -1 else n)
  {
    var name := "k" + NatToDigits(n);
    SplitName("k", n, name);
    if name == "k15" {
      SplitBusName();
    }
    if n == 15 {
      assert NatToDigits(15) == "15";
    }
  }

  /** The radius of the ring of cathode ring number `num`. */
  function CathodeRadius(num: int): real {
    RadiusForNet(Placement.Radius, num)
  }

  /** A seconds LED `D<i>`: a front track from the pad to the vertex at
      clock position i − 1 of the ring of radius `r`, and a via there. For
      1 ≤ i ≤ 60 that vertex is where edge i − 1 of the ring begins. */
  function SecondsCathode(t: Trig, r: real, i: nat, p: Pad): (it: seq<Item>)
    ensures |it| == 2 && OnNet(it, p.net)
    ensures it[0] == Track(p.pos, Vertex(t, r, i - 1), p.net, Front)
    ensures 1 <= i <= 60 ==> it[0].end == Ring(t, r, p.net, Back)[i - 1].start
    ensures it[1] == Via(it[0].end, p.net)
  {
    var corner := Polar(t, r, (i - 1) as real);
    [Track(p.pos, corner, p.net, Front), Via(corner, p.net)]
  }

  /** Hours whose last via on the ring is left out. */
  predicate NoRingVia(i: nat) {
    i == 61 || i == 71 || i == 72
  }

  /** The clock position of the hour LED `D<i>`, 61 ≤ i ≤ 72. */
  function HourPosition(i: nat): (k: nat)
    requires 61 <= i <= 72
    ensures k == (i - 61) * 5 && k <= 55
  {
    (i % 61) * 5
  }

  /** The route of an hour LED from clock position `k` on the polygon of
      radius `rh`: two front edges of the polygon, a front track to the
      polygon point half a position further, a back track 4 mm inward, and
      a front track out to the ring of radius `ring`, with vias at the layer
      changes and, when `ringVia` holds, on the ring. */
  predicate HourRoute(t: Trig, rh: real, ring: real, k: int, net: string, ringVia: bool, it: seq<Item>) {
    var half := k as real + 2.5;
    && |it| == (if ringVia then 8 else 7) && OnNet(it, net)
    && it[0] == Track(Vertex(t, rh, k), Vertex(t, rh, k + 1), net, Front)
    && it[1] == Track(Vertex(t, rh, k + 1), Vertex(t, rh, k + 2), net, Front)
    && it[2] == Track(ByPosition(t, rh, half), ByPosition(t, rh - 4.0, half), net, Back)
    && it[3] == Track(it[2].end, ByPosition(t, ring, half), net, Front)
    && it[4] == Track(it[1].end, it[2].start, net, Front)
    && Chained([it[0], it[1], it[4], it[2], it[3]])
    && it[5] == Via(it[2].start, net) && it[6] == Via(it[2].end, net)
    && (ringVia ==> it[7] == Via(it[3].end, net))
  }

  /** An hour LED `D<i>`, 61 ≤ i ≤ 72, whose pad lies at distance `rh` from
      the centre: the hour route from its clock position to the ring of
      cathode ring number `num`, with a via on the ring except for hours 61,
      71 and 72. */
  function HourCathode(t: Trig, num: int, i: nat, p: Pad): (r: Result<seq<Item>>)
    requires 61 <= i <= 72
    ensures r.Ok?
    ensures HourRoute(t, t.norm(p.pos), CathodeRadius(num), HourPosition(i), p.net, !NoRingVia(i), r.value)
  {
    var rh := t.norm(p.pos);
    Ok(HourJog(t, rh, CathodeRadius(num), HourPosition(i), p.net, !NoRingVia(i)))
  }

  /** The hour arc from clock position `k`, then the jog half a position
      further. */
  function HourJog(t: Trig, rh: real, ring: real, k: nat, net: string, ringVia: bool): (it: seq<Item>)
    ensures HourRoute(t, rh, ring, k, net, ringVia, it)
  {
    HourArc(t, rh, k, net);
    var arc := Arc.Arc(t, rh, k as real, k as real + 2.0, net, Front).value.Emitted();
    var half := k as real + 2.5;
    var t3 := Track(ByPosition(t, rh, half), ByPosition(t, rh - 4.0, half), net, Back);
    var t4 := Track(t3.end, ByPosition(t, ring, half), net, Front);
    var t2 := Track(arc[1].end, t3.start, net, Front);
    var head := [arc[0], arc[1], t3, t4, t2, Via(t2.end, net), Via(t3.end, net)];
    if ringVia then head + [Via(t4.end, net)] else head
  }

  /** The hour arc from whole clock position `k` to `k + 2`: two front edges,
      no chords, the second one returned. */
  lemma HourArc(t: Trig, rh: real, k: nat, net: string)
    ensures var a := Arc.Arc(t, rh, k as real, k as real + 2.0, net, Front);
      && a.Ok? && a.value.Emitted() == a.value.edges && |a.value.edges| == 2
      && a.value.Last() == Some(a.value.edges[1])
      && a.value.edges[0] == Track(Vertex(t, rh, k), Vertex(t, rh, k + 1), net, Front)
      && a.value.edges[1] == Track(Vertex(t, rh, k + 1), Vertex(t, rh, k + 2), net, Front)
  {
    var pos := k as real;
    TruncOfNonNegative(pos);
    TruncOfNonNegative(pos + 2.0);
    assert !Fractional(pos) && !Fractional(pos + 2.0);
    var a := Arc.Arc(t, rh, pos, pos + 2.0, net, Front);
    assert EdgeCount(pos, pos + 2.0) == 2;
    assert a.value.edges[0] == Track(Vertex(t, rh, Offset(k, 0, true)), Vertex(t, rh, Offset(k, 1, true)), net, Front);
    assert a.value.edges[1] == Track(Vertex(t, rh, Offset(k, 1, true)), Vertex(t, rh, Offset(k, 2, true)), net, Front);
  }

  /** The connector pin `number` of a connector pad: a back track from the
      pad to a via 4 mm towards negative y from the connector's origin,
      then a front track to the point of the pad's x on the ray of the pin,
      and a front track out along that ray to the ring, ending in a via. */
  function ConnectorCathode(t: Trig, r: real, p: Pad): (it: seq<Item>)
    ensures |it| == 5 && OnNet(it, p.net)
    ensures Chained([it[0], it[2], it[3]])
    ensures it[0] == Track(p.pos, Point(p.pos.x, p.parentPos.y - 4.0 * NmPerMm), p.net, Back)
    ensures Vertical(it[0])
    ensures it[1] == Via(it[0].end, p.net)
    ensures it[2].Track? && it[2].start == it[0].end && it[2].layer == Front
    ensures it[2].end.x == p.pos.x && it[2].end.y == it[2].end.x * t.escapeSlope(p.number)
    ensures it[3] == Track(it[2].end, t.escapePoint(p.number, r), p.net, Front)
    ensures it[4] == Via(it[3].end, p.net)
  {
    var v := Point(p.pos.x, p.parentPos.y - 4.0 * NmPerMm);
    var m := t.escapeSlope(p.number);
    var x := Point(p.pos.x, p.pos.x * m);
    var ring := t.escapePoint(p.number, r);
    [Track(p.pos, v, p.net, Back), Via(v, p.net), Track(v, x, p.net, Front), Track(x, ring, p.net, Front),
     Via(ring, p.net)]
  }

  /** How a cathode pad is joined to its ring, by the reference of its part. */
  datatype CathodeKind = Seconds(i: nat) | Hour(i: nat) | Connector | Unrouted

  /** The kind of part a pad belongs to: `D1`…`D60` are seconds LEDs (and
      `D0`, which the script also treats so), `D61`…`D72` hour LEDs, any
      `J` part a connector, anything else is not routed. */
  function KindOf(p: Pad): (r: Result<CathodeKind>)
    ensures r.Ok? <==> SplitAnnotation(p.parent).Ok?
    ensures r.Err? ==> r.error == NoDigits
    ensures r.Ok? ==>
      var (prefix, i) := SplitAnnotation(p.parent).value;
      && (r.value.Seconds? <==> prefix == "D" && i <= 60)
      && (r.value.Hour? <==> prefix == "D" && 60 < i <= 72)
      && (r.value.Connector? <==> prefix == "J")
      && (r.value.Seconds? || r.value.Hour? ==> r.value.i == i)
  {
    var (prefix, i) :- SplitAnnotation(p.parent);
    if prefix == "D" && i <= 60 then Ok(Seconds(i))
    else if prefix == "D" && i <= 72 then Ok(Hour(i))
    else if prefix == "J" then Ok(Connector)
    else Ok(Unrouted)
  }

  /** The tracks and vias joining one pad of a cathode net to its ring. */
  function CathodePad(t: Trig, num: int, p: Pad): (r: Result<seq<Item>>)
    ensures r.Ok? <==> KindOf(p).Ok?
    ensures r.Err? ==> r.error == NoDigits
    ensures r.Ok? ==> OnNet(r.value, p.net)
    ensures r.Ok? ==> (|r.value| == 0 <==> KindOf(p).value.Unrouted?)
    ensures SplitAnnotation(p.parent).Ok? ==>
      var (prefix, i) := SplitAnnotation(p.parent).value;
      && (prefix == "D" && i <= 60 ==> r == Ok(SecondsCathode(t, CathodeRadius(num), i, p)))
      && (prefix == "D" && 60 < i <= 72 ==> r == HourCathode(t, num, i, p))
      && (prefix == "J" ==> r == Ok(ConnectorCathode(t, CathodeRadius(num), p)))
      && (!(prefix == "D" && i <= 72) && prefix != "J" ==> r == Ok([]))
  {
    var kind :- KindOf(p);
    match kind
    case Seconds(i) => Ok(SecondsCathode(t, CathodeRadius(num), i, p))
    case Hour(i) => HourCathode(t, num, i, p)
    case Connector => Ok(ConnectorCathode(t, CathodeRadius(num), p))
    case Unrouted => Ok([])
  }

  /** The routes of all pads of a net, pad after pad. */
  function PadRoutes(t: Trig, num: int, value: seq<Pad>): (r: Result<seq<Item>>)
    ensures r.Ok? <==> forall i :: 0 <= i < |value| ==> KindOf(value[i]).Ok?
    ensures r.Err? ==> r.error == NoDigits
    ensures r.Ok? ==> forall n :: (forall i :: 0 <= i < |value| ==> value[i].net == n) ==> OnNet(r.value, n)
  {
    var routes :- MapAll(p => CathodePad(t, num, p), value);
    assert forall n :: (forall i :: 0 <= i < |value| ==> value[i].net == n) ==> OnNet(Flatten(routes), n) by {
      forall n | forall i :: 0 <= i < |value| ==> value[i].net == n
        ensures OnNet(Flatten(routes), n)
      {
        FlattenOnNet(routes, n);
      }
    }
    Ok(Flatten(routes))
  }

  /** The routes of a net are the routes of its pads, in pad order. */
  lemma PadRoutesInOrder(t: Trig, num: int, value: seq<Pad>)
    ensures PadRoutes(t, num, value).Ok? ==>
      PadRoutes(t, num, value).value == Flatten(seq(|value|, i requires 0 <= i < |value| => CathodePad(t, num, value[i]).ValueOr([])))
  {
    var routes := MapAll(p => CathodePad(t, num, p), value);
    if routes.Ok? {
      assert routes.value == seq(|value|, i requires 0 <= i < |value| => CathodePad(t, num, value[i]).ValueOr([]));
    }
  }

  /** One cathode net: its ring on the back, then every pad's route. The
      ring takes its net from the first pad, so an empty net fails. */
  function CathodeNet(t: Trig, name: string, value: seq<Pad>): (r: Result<seq<Item>>)
    ensures r.Ok? <==>
      && SplitAnnotation(name).Ok? && |value| > 0
      && forall i :: 0 <= i < |value| ==> KindOf(value[i]).Ok?
    ensures r.Err? ==> r.error == (if SplitAnnotation(name).Ok? && |value| == 0 then IndexOutOfRange else NoDigits)
    ensures r.Ok? ==>
      && |r.value| >= 61
      && r.value[..61] == Ring(t, CathodeRadius(RingNumber(name).value), value[0].net, Back)
      && r.value[61..] == PadRoutes(t, RingNumber(name).value, value).value
    ensures r.Ok? && (forall i :: 0 <= i < |value| ==> value[i].net == value[0].net) ==>
      OnNet(r.value, value[0].net)
  {
    var num :- RingNumber(name);
    if |value| == 0 then Err(IndexOutOfRange)
    else
      var ring := Ring(t, CathodeRadius(num), value[0].net, Back);
      var routes :- PadRoutes(t, num, value);
      assert (ring + routes)[..61] == ring;
      assert (ring + routes)[61..] == routes;
      assert (forall i :: 0 <= i < |value| ==> value[i].net == value[0].net) ==> OnNet(ring + routes, value[0].net) by {
        if forall i :: 0 <= i < |value| ==> value[i].net == value[0].net {
          OnNetAppend(ring, routes, value[0].net);
        }
      }
      Ok(ring + routes)
  }

  /** The cathode routing is every cathode net's routing, in net order. */
  lemma CathodeNetsInOrder(t: Trig, g: Nets)
    ensures CathodeNets(t, g).Ok? ==>
      CathodeNets(t, g).value == Flatten(seq(|g|, i requires 0 <= i < |g| => CathodeNet(t, g[i].0, g[i].1).ValueOr([])))
  {
    var routes := MapAll((e: (string, seq<Pad>)) => CathodeNet(t, e.0, e.1), g);
    if routes.Ok? {
      forall i | 0 <= i < |g|
        ensures routes.value[i] == CathodeNet(t, g[i].0, g[i].1).ValueOr([])
      {
        assert CathodeNet(t, g[i].0, g[i].1).Ok?;
      }
      assert routes.value == seq(|g|, i requires 0 <= i < |g| => CathodeNet(t, g[i].0, g[i].1).ValueOr([]));
    }
  }

  /** The cathode routing of every cathode net, in net order. */
  function CathodeNets(t: Trig, g: Nets): (r: Result<seq<Item>>)
    ensures r.Ok? <==> forall i :: 0 <= i < |g| ==> CathodeNet(t, g[i].0, g[i].1).Ok?
    ensures r.Err? ==>
      exists i :: 0 <= i < |g| && CathodeNet(t, g[i].0, g[i].1) == Err(r.error)
        && forall j :: 0 <= j < i ==> CathodeNet(t, g[j].0, g[j].1).Ok?
    ensures r.Ok? ==> forall i, x :: 0 <= i < |g| && x in CathodeNet(t, g[i].0, g[i].1).value ==> x in r.value
  {
    var routes :- MapAll((e: (string, seq<Pad>)) => CathodeNet(t, e.0, e.1), g);
    Ok(Flatten(routes))
  }
}

=== FILE: clock_face.dfy ===
/** Clock-face arithmetic: the angle of a clock position, the rotation of an
    LED placed there, the radius of a cathode ring, and the points on the
    60-gon that approximates each ring. Angles are exact: the script's radian
    angle is a rational multiple of π, so it is kept here in degrees. */
module ClockFace {
  import opened Geometry

  /** `calc_rad_angle_from_clock_position` divided by π. */
  function AngleHalfTurns(p: real): (k: real)
    ensures -3.0 < k <= -1.0
  {
    -Mod60(p) / 30.0 - 1.0
  }

  /** `calc_deg_angle_from_clock_position`: the radian angle converted to
      degrees. Position 0 is at −180°, and every position step turns the
      angle 6° further clockwise. */
  function AngleDegrees(p: real): (d: real)
    ensures d == -6.0 * Mod60(p) - 180.0
    ensures -540.0 < d <= -180.0
  {
    180.0 * AngleHalfTurns(p)
  }

  /** The angle depends on the position only modulo 60. */
  lemma AnglePeriodic(p: real, k: int)
    ensures AngleDegrees(p + 60.0 * k as real) == AngleDegrees(p)
  {
    Mod60Shift(p, k);
  }

  /** Within one turn, a later position has a strictly smaller angle. */
  lemma AngleDecreasing(p: real, q: real)
    requires 0.0 <= p < q < 60.0
    ensures AngleDegrees(q) < AngleDegrees(p)
  {
    Mod60Identity(p);
    Mod60Identity(q);
  }

  /** The rotation, in tenths of a degree, given to an LED at clock position
      `p` so that it faces outward: `(degrees − 90)·10`. */
  function RingRotation(p: real): (tenths: real)
    ensures tenths == -60.0 * Mod60(p) - 2700.0
    ensures -6300.0 < tenths <= -2700.0
  {
    (AngleDegrees(p) - 90.0) * 10.0
  }

  /** `radius_from_net_number`: the radius in millimetres of the ring that
      carries cathode net `n`, for a board whose seconds ring has radius
      `radius`. The script also computes a local `f` that it never uses. */
  function RadiusForNet(radius: real, n: int): (r: real)
    ensures n == 16 ==> r == radius - 1.2
    ensures n < 16 <==> r < radius - 1.2
  {
    radius - 1.2 - (16 - n) as real * 0.75
  }

  /** Cathode rings are strictly ordered by net number, 0.75 mm apart. */
  lemma RadiusIncreasing(radius: real, n: int, m: int)
    requires n < m
    ensures RadiusForNet(radius, n) < RadiusForNet(radius, m)
    ensures RadiusForNet(radius, m) - RadiusForNet(radius, n) == 0.75 * (m - n) as real
  {
  }

  /** `calc_xy_location_from_clock_position_WxPoint`: the point at clock
      position `p` on the circle of radius `r` millimetres. */
  function Polar(t: Trig, r: real, p: real): (pt: Point)
    ensures pt == t.polar(r, -6.0 * Mod60(p) - 180.0)
  {
    t.polar(r, AngleDegrees(p))
  }

  /** Points on a circle repeat every 60 clock positions. */
  lemma PolarPeriodic(t: Trig, r: real, p: real, k: int)
    ensures Polar(t, r, p + 60.0 * k as real) == Polar(t, r, p)
  {
    AnglePeriodic(p, k);
  }

  /** Vertex `k` of the 60-gon of radius `r`. */
  function Vertex(t: Trig, r: real, k: int): Point {
    Polar(t, r, k as real)
  }

  /** Vertices repeat every 60 positions: this is the fact that closes a ring. */
  lemma VertexPeriodic(t: Trig, r: real, k: int)
    ensures Vertex(t, r, k) == Vertex(t, r, k % 60)
  {
    var q := k / 60;
    assert k as real == (k % 60) as real + 60.0 * q as real;
    AnglePeriodic((k % 60) as real, q);
  }

  /** `get_ring_intersection`: the point where the line through the origin
      with slope parameter `m` meets the 60-gon of radius `r`, on the side
      `side`; the side multiplies both coordinates. */
  function RingHit(t: Trig, r: real, m: real, side: int): (pt: Point)
    ensures side == 1 ==> pt == t.hit(r, m)
    ensures side == -1 ==> pt == Point(-t.hit(r, m).x, -t.hit(r, m).y)
    ensures side == 0 ==> pt == Origin
  {
    Scale(side as real, t.hit(r, m))
  }

  /** The two sides of `get_ring_intersection` are mirror images through the
      origin. */
  lemma RingHitReflection(t: Trig, r: real, m: real)
    ensures RingHit(t, r, m, -1) == Scale(-1.0, RingHit(t, r, m, 1))
  {
  }

  /** `get_ring_intersection_by_position`: the polygon point at a possibly
      fractional clock position, always taken on side +1. */
  function ByPosition(t: Trig, r: real, p: real): (pt: Point)
    ensures Scale(-1.0, pt) == RingHit(t, r, t.slopeOf(p), -1)
  {
    RingHit(t, r, t.slopeOf(p), 1)
  }
}

=== FILE: digit_bus.dfy ===
/** The cathode bus of the four digits: every segment cathode pad of a digit
    is stapled to the same pad of its neighbour (digit 1 to digit 2, digit 3
    to digit 4), each staple's outer via is extended sideways to the outermost
    via column and escapes on the front to the ring of its net; then the
    separator LEDs are hung on a vertical k15 bus. */
module DigitBus {
  import opened Wrappers
  import opened Geometry
  import opened ClockFace
  import opened Annotation
  import opened OrderedDict
  import opened Nets
  import opened Templates
  import Placement
  import opened Cathode

  /** The pad numbers used by `pads`. */
  function Numbers(pads: seq<Pad>): set<nat> {
    set i | 0 <= i < |pads| :: pads[i].number
  }

  lemma NumbersSnoc(pads: seq<Pad>)
    requires |pads| > 0
    ensures Numbers(pads) == Numbers(pads[..|pads| - 1]) + {pads[|pads| - 1].number}
  {
    var init := pads[..|pads| - 1];
    assert forall i :: 0 <= i < |init| ==> init[i] == pads[i];
  }

  /** The pad numbers of `pads`, each once, in the order of the first pad
      that carries it. */
  function NumbersInOrder(pads: seq<Pad>): seq<nat>
  {
    if |pads| == 0 then []
    else
      var ns := NumbersInOrder(pads[..|pads| - 1]);
      var k := pads[|pads| - 1].number;
      if k in ns then ns else ns + [k]
  }

  /** Pad `i` is the last pad of `pads` with its number. */
  predicate LastOfNumber(pads: seq<Pad>, i: nat)
    requires i < |pads|
  {
    forall j :: i < j < |pads| ==> pads[j].number != pads[i].number
  }

  /** The pads of one digit by pad number; a later pad with the same number
      replaces an earlier one, and the numbers keep the order of their first
      pad. */
  function PadsByNumber(pads: seq<Pad>): (d: Dict<nat, Pad>)
    ensures DistinctKeys(d)
    ensures forall k :: k in Keys(d) <==> k in Numbers(pads)
    ensures forall k :: k in Keys(d) ==> Get(d, k).value in pads && Get(d, k).value.number == k
  {
    if |pads| == 0 then []
    else
      var init := pads[..|pads| - 1];
      var p := pads[|pads| - 1];
      NumbersSnoc(pads);
      assert forall q :: q in init ==> q in pads;
      Put(PadsByNumber(init), p.number, p)
  }

  /** The pad numbers keep the order of the first pad carrying each. */
  lemma {:induction false} PadsByNumberOrder(pads: seq<Pad>)
    ensures Keys(PadsByNumber(pads)) == NumbersInOrder(pads)
  {
    if |pads| > 0 {
      PadsByNumberOrder(pads[..|pads| - 1]);
    }
  }

  /** Each number maps to the last pad carrying it. */
  lemma {:induction false} PadsByNumberLast(pads: seq<Pad>, i: nat)
    requires i < |pads| && LastOfNumber(pads, i)
    ensures Get(PadsByNumber(pads), pads[i].number) == Some(pads[i])
  {
    var init := pads[..|pads| - 1];
    if i < |init| {
      assert init[i] == pads[i];
      assert LastOfNumber(init, i) by {
        assert forall j :: i < j < |init| ==> init[j] == pads[j];
      }
      PadsByNumberLast(init, i);
    }
  }

  /** The pad table of one digit: its pads by number without the two common
      anodes 3 and 8, which must both be present. */
  function DigitPads(pads: seq<Pad>): (r: Result<Dict<nat, Pad>>)
    ensures r.Ok? <==> 3 in Numbers(pads) && 8 in Numbers(pads)
    ensures r.Err? ==> r.error == MissingKey
    ensures r.Ok? ==> DistinctKeys(r.value)
    ensures r.Ok? ==> forall k :: Get(r.value, k).Some? <==> k != 3 && k != 8 && k in Numbers(pads)
    ensures r.Ok? ==> forall k :: k in Keys(r.value) ==>
      Get(r.value, k).value in pads && Get(r.value, k).value.number == k
  {
    var d := PadsByNumber(pads);
    var (_, d1) :- Pop(d, 3);
    assert 8 in Keys(d1) <==> 8 in Keys(d) by {
      assert Get(d1, 8) == Get(d, 8);
    }
    var (_, d2) :- Pop(d1, 8);
    assert forall k :: k != 3 && k != 8 ==> Get(d2, k) == Get(d, k);
    Ok(d2)
  }

  /** The pad table of a digit lists its pad numbers other than 3 and 8 in
      the order of their first pad; this is the order of the staple loop. */
  lemma DigitPadsOrder(pads: seq<Pad>)
    ensures DigitPads(pads).Ok? ==>
      Keys(DigitPads(pads).value) == Without(Without(NumbersInOrder(pads), 3), 8)
  {
    var d := PadsByNumber(pads);
    PadsByNumberOrder(pads);
    PopKeys(d, 3);
    var r1 := Pop(d, 3);
    if r1.Ok? {
      PopKeys(r1.value.1, 8);
    }
  }

  /** In the pad table of a digit, each number other than 3 and 8 maps to
      the last pad carrying it. */
  lemma DigitPadsLast(pads: seq<Pad>, i: nat)
    requires i < |pads| && LastOfNumber(pads, i) && pads[i].number != 3 && pads[i].number != 8
    ensures DigitPads(pads).Ok? ==> Get(DigitPads(pads).value, pads[i].number) == Some(pads[i])
  {
    PadsByNumberLast(pads, i);
  }

  /** `net_norm_distance_dict`: how far, in units of 1.4 mm, the staple of
      each cathode net runs above (negative) or below the pads. */
  const NormDistance: Dict<string, real> := [
    ("k0", -3.0), ("k1", 3.0), ("k2", -4.0), ("k3", 4.0),
    ("k4", -5.0), ("k5", 5.0), ("k6", -6.0), ("k7", 6.0),
    ("k8", -3.0), ("k9", -4.0), ("k10", 4.0), ("k11", -5.0),
    ("k12", 5.0), ("k13", -6.0), ("k14", 6.0), ("k15", 3.0)]

  /** Every item of `items` is on one of the nets `ns`. */
  predicate OnNets(items: seq<Item>, ns: seq<string>) {
    forall i :: 0 <= i < |items| ==> items[i].net in ns
  }

  lemma OnNetsJoin(a: seq<Item>, b: seq<Item>, ns: seq<string>)
    requires OnNets(a, ns) && OnNets(b, ns)
    ensures OnNets(a + b, ns)
  {
    assert forall i :: |a| <= i < |a + b| ==> (a + b)[i] == b[i - |a|];
  }

  /** A staple between the pads numbered `k` of two digits, on the net of the
      first, at that net's distance in `table`; every lookup may fail. */
  function StaplePair(left: Dict<nat, Pad>, right: Dict<nat, Pad>, table: Dict<string, real>, k: nat)
    : (r: Result<(string, Staple)>)
    ensures r.Ok? <==>
      && Get(left, k).Some? && Get(right, k).Some?
      && Get(table, Get(left, k).value.net).Some?
      && Get(left, k).value.net == Get(right, k).value.net
    ensures r.Err? ==> r.error == MissingKey || r.error == NetMismatch
    ensures r.Ok? ==>
      var a := Get(left, k).value;
      && r.value.0 == a.net
      && StapleRoute(a, Get(right, k).value, Get(table, a.net).value * 1.4) == Ok(r.value.1)
  {
    match Get(left, k)
    case None => Err(MissingKey)
    case Some(a) =>
      match Get(right, k)
      case None => Err(MissingKey)
      case Some(b) =>
        match Get(table, a.net)
        case None => Err(MissingKey)
        case Some(d) =>
          var s :- StapleRoute(a, b, d * 1.4);
          Ok((a.net, s))
  }

  /** The recorded vias grow from `vias` to `v`: no net is lost, every new
      net is one of the table's, and no net comes to be recorded twice. */
  predicate Grows(vias: Dict<string, Point>, v: Dict<string, Point>, table: Dict<string, real>) {
    && (forall n :: n in Keys(vias) ==> n in Keys(v))
    && (forall n :: n in Keys(v) ==> n in Keys(vias) || n in Keys(table))
    && (DistinctKeys(vias) ==> DistinctKeys(v))
  }

  lemma GrowsTrans(a: Dict<string, Point>, b: Dict<string, Point>, c: Dict<string, Point>, table: Dict<string, real>)
    requires Grows(a, b, table) && Grows(b, c, table)
    ensures Grows(a, c, table)
  {
  }

  /** One staple of the loop: the pads numbered `k` of two digits joined,
      and the staple's outer via recorded under its net. */
  function StapleStep(left: Dict<nat, Pad>, right: Dict<nat, Pad>, table: Dict<string, real>, k: nat,
                      vias: Dict<string, Point>)
    : (r: Result<(seq<Item>, Dict<string, Point>)>)
    ensures r.Ok? <==> StaplePair(left, right, table, k).Ok?
    ensures r.Ok? ==> |r.value.0| == 5
    ensures r.Ok? ==>
      var (it, v) := r.value;
      var n := it[0].net;
      && OnNet(it, n) && n in Keys(v) && Grows(vias, v, table)
      && it[1].Via? && it[3].Via?
      && (Get(v, n) == Some(it[1].pos) || Get(v, n) == Some(it[3].pos))
      && forall m :: m != n ==> Get(v, m) == Get(vias, m)
    ensures r.Ok? ==> OnNets(r.value.0, Keys(r.value.1))
    ensures r.Ok? ==>
      var s := StaplePair(left, right, table, k).value;
      r.value.0 == s.1.items && r.value.1 == Put(vias, s.0, s.1.outer)
  {
    var (n, s) :- StaplePair(left, right, table, k);
    Ok((s.items, Put(vias, n, s.outer)))
  }

  /** Growing the set of allowed nets keeps every item on an allowed net. */
  lemma OnNetsWiden(items: seq<Item>, ns: seq<string>, ms: seq<string>)
    requires OnNets(items, ns) && forall n :: n in ns ==> n in ms
    ensures OnNets(items, ms)
  {
  }

  /** One round of the staple loop: digits 1 and 2, then 3 and 4, for pad
      number `k`. */
  function StapleRound(digits: seq<Dict<nat, Pad>>, table: Dict<string, real>, k: nat, vias: Dict<string, Point>)
    : (r: Result<(seq<Item>, Dict<string, Point>)>)
    requires |digits| == 4
    ensures r.Ok? <==> RoundRoutes(digits, table, k)
    ensures r.Ok? ==> |r.value.0| == 10
    ensures r.Ok? ==> Grows(vias, r.value.1, table) && OnNets(r.value.0, Keys(r.value.1))
    ensures r.Ok? ==>
      var s := StaplePair(digits[0], digits[1], table, k).value;
      var u := StaplePair(digits[2], digits[3], table, k).value;
      && r.value.0 == s.1.items + u.1.items
      && r.value.1 == Put(Put(vias, s.0, s.1.outer), u.0, u.1.outer)
  {
    var r0 := StapleStep(digits[0], digits[1], table, k, vias);
    if r0.Err? then Err(r0.error)
    else
      var (a, v0) := r0.value;
      var r2 := StapleStep(digits[2], digits[3], table, k, v0);
      if r2.Err? then Err(r2.error)
      else
        var (b, v2) := r2.value;
        GrowsTrans(vias, v0, v2, table);
        OnNetsWiden(a, Keys(v0), Keys(v2));
        OnNetsJoin(a, b, Keys(v2));
        Ok((a + b, v2))
  }

  /** The staple loop over the pad numbers `keys` of the first digit; a
      net met again replaces its recorded via. */
  function Staples(digits: seq<Dict<nat, Pad>>, table: Dict<string, real>, keys: seq<nat>, vias: Dict<string, Point>)
    : (r: Result<(seq<Item>, Dict<string, Point>)>)
    requires |digits| == 4
    ensures r.Ok? ==> |r.value.0| == 10 * |keys|
    ensures r.Ok? ==> Grows(vias, r.value.1, table) && OnNets(r.value.0, Keys(r.value.1))
    decreases |keys|
  {
    if |keys| == 0 then Ok(([], vias))
    else
      var r0 := StapleRound(digits, table, keys[0], vias);
      if r0.Err? then Err(r0.error)
      else
        var (head, v2) := r0.value;
        var r1 := Staples(digits, table, keys[1..], v2);
        if r1.Err? then Err(r1.error)
        else
          var (rest, v) := r1.value;
          GrowsTrans(vias, v2, v, table);
          assert OnNets(head, Keys(v)) by {
            OnNetsWiden(head, Keys(v2), Keys(v));
          }
          OnNetsJoin(head, rest, Keys(v));
          Ok((head + rest, v))
  }

  /** The items of the staple joining the pads numbered `k` of two digits;
      none when it cannot be routed. */
  function StapleItems(left: Dict<nat, Pad>, right: Dict<nat, Pad>, table: Dict<string, real>, k: nat): seq<Item> {
    match StaplePair(left, right, table, k)
    case Ok((_, s)) => s.items
    case Err(_) => []
  }

  /** The staples of the pad numbers `keys`, in order: for each, that of
      digits 1 and 2 followed by that of digits 3 and 4. */
  function StapleRun(digits: seq<Dict<nat, Pad>>, table: Dict<string, real>, keys: seq<nat>): seq<Item>
    requires |digits| == 4
  {
    if |keys| == 0 then []
    else
      StapleItems(digits[0], digits[1], table, keys[0]) + StapleItems(digits[2], digits[3], table, keys[0])
        + StapleRun(digits, table, keys[1..])
  }

  /** Both staples of pad number `k` can be routed. */
  predicate RoundRoutes(digits: seq<Dict<nat, Pad>>, table: Dict<string, real>, k: nat)
    requires |digits| == 4
  {
    StaplePair(digits[0], digits[1], table, k).Ok? && StaplePair(digits[2], digits[3], table, k).Ok?
  }

  /** The staple loop fails exactly when one of its staples cannot be
      routed, whatever vias it starts from. */
  lemma {:induction false} StaplesSucceed(digits: seq<Dict<nat, Pad>>, table: Dict<string, real>, keys: seq<nat>,
                                          vias: Dict<string, Point>)
    requires |digits| == 4
    ensures Staples(digits, table, keys, vias).Ok? <==> forall k :: k in keys ==> RoundRoutes(digits, table, k)
    decreases |keys|
  {
    if |keys| > 0 {
      var r0 := StapleRound(digits, table, keys[0], vias);
      assert forall k :: k in keys <==> k == keys[0] || k in keys[1..];
      var r := Staples(digits, table, keys, vias);
      if r0.Err? {
        assert r.Err?;
      } else {
        var r1 := Staples(digits, table, keys[1..], r0.value.1);
        assert r.Ok? <==> r1.Ok?;
        StaplesSucceed(digits, table, keys[1..], r0.value.1);
      }
    }
  }

  /** The staple loop runs through the pad numbers in order and, for each,
      emits the staple of digits 1 and 2 and then that of digits 3 and 4. */
  lemma {:induction false} StaplesInOrder(digits: seq<Dict<nat, Pad>>, table: Dict<string, real>, keys: seq<nat>,
                                          vias: Dict<string, Point>)
    requires |digits| == 4
    ensures Staples(digits, table, keys, vias).Ok? ==> Staples(digits, table, keys, vias).value.0 == StapleRun(digits, table, keys)
    decreases |keys|
  {
    var r := Staples(digits, table, keys, vias);
    if |keys| > 0 && r.Ok? {
      var r0 := StapleRound(digits, table, keys[0], vias);
      assert r0.Ok?;
      var r1 := Staples(digits, table, keys[1..], r0.value.1);
      assert r1.Ok? && r.value.0 == r0.value.0 + r1.value.0;
      StaplesInOrder(digits, table, keys[1..], r0.value.1);
      var s := StaplePair(digits[0], digits[1], table, keys[0]).value;
      var u := StaplePair(digits[2], digits[3], table, keys[0]).value;
      assert StapleItems(digits[0], digits[1], table, keys[0]) == s.1.items;
      assert StapleItems(digits[2], digits[3], table, keys[0]) == u.1.items;
    }
  }

  /** `vias` with the outer via of the staple joining the pads numbered `k`
      of two digits recorded under its net; unchanged when it cannot be
      routed. */
  function Record(vias: Dict<string, Point>, left: Dict<nat, Pad>, right: Dict<nat, Pad>, table: Dict<string, real>, k: nat)
    : Dict<string, Point>
  {
    match StaplePair(left, right, table, k)
    case Ok((n, s)) => Put(vias, n, s.outer)
    case Err(_) => vias
  }

  /** The vias recorded over the pad numbers `keys`, in order: for each,
      that of the staple of digits 1 and 2, then that of digits 3 and 4. */
  function StapleVias(digits: seq<Dict<nat, Pad>>, table: Dict<string, real>, keys: seq<nat>, vias: Dict<string, Point>)
    : Dict<string, Point>
    requires |digits| == 4
    decreases |keys|
  {
    if |keys| == 0 then vias
    else
      var v := Record(Record(vias, digits[0], digits[1], table, keys[0]), digits[2], digits[3], table, keys[0]);
      StapleVias(digits, table, keys[1..], v)
  }

  /** The staple loop leaves each net with the outer via of its last staple,
      the nets in the order they were first recorded. */
  lemma {:induction false} StaplesRecord(digits: seq<Dict<nat, Pad>>, table: Dict<string, real>, keys: seq<nat>,
                                         vias: Dict<string, Point>)
    requires |digits| == 4
    ensures Staples(digits, table, keys, vias).Ok? ==> Staples(digits, table, keys, vias).value.1 == StapleVias(digits, table, keys, vias)
    decreases |keys|
  {
    var r := Staples(digits, table, keys, vias);
    if |keys| > 0 && r.Ok? {
      var r0 := StapleRound(digits, table, keys[0], vias);
      assert r0.Ok?;
      var r1 := Staples(digits, table, keys[1..], r0.value.1);
      assert r1.Ok? && r.value.1 == r1.value.1;
      StaplesRecord(digits, table, keys[1..], r0.value.1);
      var v0 := Record(vias, digits[0], digits[1], table, keys[0]);
      assert v0 == Put(vias, StaplePair(digits[0], digits[1], table, keys[0]).value.0,
                       StaplePair(digits[0], digits[1], table, keys[0]).value.1.outer);
      assert r0.value.1 == Record(v0, digits[2], digits[3], table, keys[0]);
    }
  }

  /** The largest x of `ps`, which must not be empty. */
  function MaxX(ps: seq<Point>): (r: Result<real>)
    ensures r.Ok? <==> |ps| > 0
    ensures r.Err? ==> r.error == EmptyMax
    ensures r.Ok? ==> exists i :: 0 <= i < |ps| && ps[i].x == r.value
    ensures r.Ok? ==> forall i :: 0 <= i < |ps| ==> ps[i].x <= r.value
  {
    if |ps| == 0 then Err(EmptyMax)
    else if |ps| == 1 then Ok(ps[0].x)
    else
      var m := MaxX(ps[1..]).value;
      assert forall i :: 1 <= i < |ps| ==> ps[i] == ps[1..][i - 1];
      Ok(if ps[0].x >= m then ps[0].x else m)
  }

  /** One entry of the outer bus: the via `p` of net `name` is first carried
      sideways on the back to the outermost column when it lies inside it,
      and then escapes on the front to its ring at the height of the via
      scaled by `outer`. */
  function BusEscape(t: Trig, name: string, p: Point, outer: real): (r: Result<seq<Item>>)
    ensures r.Ok? <==> SplitAnnotation(name).Ok? && outer != 0.0
    ensures r.Err? ==> r.error == if SplitAnnotation(name).Err? then NoDigits else DivisionByZero
    ensures r.Ok? ==>
      var it := r.value;
      var q := ToColumn(p, outer);
      var f := if Abs(p.x) < outer then 2 else 0;
      var hit := RingHit(t, RadiusForNet(Placement.Radius, RingNumber(name).value),
                         p.y / outer * Sign(p.x) as real, Sign(q.x));
      && |it| == f + 2 && OnNet(it, name)
      && (f == 2 ==> it[0] == Track(p, q, name, Back) && Horizontal(it[0]) && it[1] == Via(q, name))
      && it[f] == Track(q, hit, name, Front)
      && it[f + 1] == Via(hit, name)
  {
    var q := ToColumn(p, outer);
    var head := if Abs(p.x) < outer then [Track(p, q, name, Back), Via(q, name)] else [];
    var num :- RingNumber(name);
    if outer == 0.0 then Err(DivisionByZero)
    else
      var m := p.y / outer * Sign(p.x) as real;
      var hit := RingHit(t, RadiusForNet(Placement.Radius, num), m, Sign(q.x));
      var tail := [Track(q, hit, name, Front), Via(hit, name)];
      var it := head + tail;
      assert it[|head|] == tail[0] && it[|head| + 1] == tail[1];
      Ok(it)
  }

  /** Where a staple via ends up before it escapes: moved sideways out to
      the column at `outer` when it lies strictly inside it, on its own side
      of the centre line, and otherwise where it is. */
  function ToColumn(p: Point, outer: real): (q: Point)
    ensures q.y == p.y
    ensures !(Abs(p.x) < outer) ==> q == p
    ensures p.x == 0.0 ==> q == p
    ensures p.x != 0.0 ==> Abs(q.x) >= outer && Sign(q.x) == Sign(p.x) && Abs(q.x) >= Abs(p.x)
    ensures p.x != 0.0 && Abs(p.x) < outer ==> Abs(q.x) == outer
  {
    if Abs(p.x) < outer then Point(outer * Sign(p.x) as real, p.y) else p
  }

  /** The outer-bus loop over the staple vias, in the order of their nets. */
  function BusEscapes(t: Trig, vias: Dict<string, Point>, outer: real): (r: Result<seq<Item>>)
    ensures r.Ok? <==>
      (|vias| == 0 || outer != 0.0) && forall i :: 0 <= i < |vias| ==> SplitAnnotation(vias[i].0).Ok?
    ensures r.Ok? ==> forall i :: 0 <= i < |r.value| ==> r.value[i].net in Keys(vias)
  {
    if |vias| == 0 then Ok([])
    else
      var (name, p) := vias[0];
      var head := BusEscape(t, name, p, outer);
      var tail := BusEscapes(t, vias[1..], outer);
      assert Keys(vias) == [name] + Keys(vias[1..]);
      assert forall i :: 0 <= i < |vias[1..]| ==> vias[1..][i] == vias[i + 1];
      if head.Err? then Err(head.error)
      else if tail.Err? then Err(tail.error)
      else
        var items := head.value + tail.value;
        assert forall i :: |head.value| <= i < |items| ==> items[i] == tail.value[i - |head.value|];
        Ok(items)
  }

  /** The outer-bus loop emits the escape of every via, in the order of the
      nets. */
  lemma {:induction false} BusEscapesInOrder(t: Trig, vias: Dict<string, Point>, outer: real)
    ensures BusEscapes(t, vias, outer).Ok? ==>
      BusEscapes(t, vias, outer).value ==
        Flatten(seq(|vias|, i requires 0 <= i < |vias| => BusEscape(t, vias[i].0, vias[i].1, outer).ValueOr([])))
  {
    if |vias| > 0 {
      BusEscapesInOrder(t, vias[1..], outer);
      var ss := seq(|vias|, i requires 0 <= i < |vias| => BusEscape(t, vias[i].0, vias[i].1, outer).ValueOr([]));
      assert ss[1..] == seq(|vias[1..]|, i requires 0 <= i < |vias[1..]| =>
        BusEscape(t, vias[1..][i].0, vias[1..][i].1, outer).ValueOr([]));
    }
  }

  /** The outer bus: every staple via escapes to its ring, the ones inside
      the outermost via column first moved out to it. */
  function OuterBus(t: Trig, vias: Dict<string, Point>): (r: Result<seq<Item>>)
    ensures r.Ok? <==>
      && |vias| > 0
      && MaxX(Values(vias)).Ok? && MaxX(Values(vias)).value != 0.0
      && forall i :: 0 <= i < |vias| ==> SplitAnnotation(vias[i].0).Ok?
    ensures r.Ok? ==> forall i :: 0 <= i < |r.value| ==> r.value[i].net in Keys(vias)
  {
    var outer :- MaxX(Values(vias));
    BusEscapes(t, vias, outer)
  }

  /** The outer bus is the escape of every recorded via, in the order of the
      nets, with the outermost column at the largest via x. */
  lemma OuterBusInOrder(t: Trig, vias: Dict<string, Point>)
    ensures OuterBus(t, vias).Ok? ==>
      var outer := MaxX(Values(vias)).value;
      OuterBus(t, vias).value ==
        Flatten(seq(|vias|, i requires 0 <= i < |vias| => BusEscape(t, vias[i].0, vias[i].1, outer).ValueOr([])))
  {
    if MaxX(Values(vias)).Ok? {
      BusEscapesInOrder(t, vias, MaxX(Values(vias)).value);
    }
  }

  /** The x of the vertical k15 bus, 1.27 mm right of the centre. */
  const BusX: real := 1270000.0

  /** The positions of the k15 vias on the board, in board order. */
  function K15Vias(board: seq<Item>): (vs: seq<Point>)
    ensures forall i :: 0 <= i < |vs| ==> Via(vs[i], "k15") in board
    ensures forall i :: 0 <= i < |board| && board[i].Via? && board[i].net == "k15" ==> board[i].pos in vs
  {
    if |board| == 0 then []
    else
      var rest := K15Vias(board[1..]);
      assert forall i :: 1 <= i < |board| ==> board[i] == board[1..][i - 1];
      if board[0].Via? && board[0].net == "k15" then [board[0].pos] + rest else rest
  }

  /** The k15 vias are kept in board order: the result is every item's own
      contribution, its position for a k15 via and nothing otherwise, one
      after another. */
  lemma {:induction false} K15ViasInOrder(board: seq<Item>)
    ensures K15Vias(board) == Flatten(seq(|board|, i requires 0 <= i < |board| => if board[i].Via? && board[i].net == "k15" then [board[i].pos] else []))
  {
    if |board| > 0 {
      K15ViasInOrder(board[1..]);
      var ss := seq(|board|, i requires 0 <= i < |board| => if board[i].Via? && board[i].net == "k15" then [board[i].pos] else []);
      assert ss[1..] == seq(|board[1..]|, i requires 0 <= i < |board[1..]| => if board[1..][i].Via? && board[1..][i].net == "k15" then [board[1..][i].pos] else []);
    }
  }

  /** The pads of the separator LEDs (references starting with `D`) on k15. */
  function SeparatorPads(pads: seq<Pad>): (ls: seq<Pad>)
    ensures forall p :: p in ls <==> p in pads && p.net == "k15" && StartsWith(p.parent, 'D')
  {
    if |pads| == 0 then []
    else
      var rest := SeparatorPads(pads[1..]);
      assert forall p :: p in pads <==> p == pads[0] || p in pads[1..];
      if pads[0].net == "k15" && StartsWith(pads[0].parent, 'D') then [pads[0]] + rest else rest
  }

  /** The separator pads are kept in pad order. */
  lemma {:induction false} SeparatorPadsInOrder(pads: seq<Pad>)
    ensures SeparatorPads(pads) == Flatten(seq(|pads|, i requires 0 <= i < |pads| => if pads[i].net == "k15" && StartsWith(pads[i].parent, 'D') then [pads[i]] else []))
  {
    if |pads| > 0 {
      SeparatorPadsInOrder(pads[1..]);
      var ss := seq(|pads|, i requires 0 <= i < |pads| => if pads[i].net == "k15" && StartsWith(pads[i].parent, 'D') then [pads[i]] else []);
      assert ss[1..] == seq(|pads[1..]|, i requires 0 <= i < |pads[1..]| => if pads[1..][i].net == "k15" && StartsWith(pads[1..][i].parent, 'D') then [pads[1..][i]] else []);
    }
  }

  /** The heights of `ps`, as the x of points so that `MaxX` finds the
      highest. */
  function Heights(ps: seq<Pad>): (hs: seq<Point>)
    ensures |hs| == |ps|
    ensures forall i :: 0 <= i < |ps| ==> hs[i].x == ps[i].pos.y
  {
    if |ps| == 0 then [] else [Point(ps[0].pos.y, 0.0)] + Heights(ps[1..])
  }

  /** A via on the bus at the height of each pad, and a front track from the
      pad to it. */
  function Drops(ps: seq<Pad>): (it: seq<Item>)
    ensures |it| == 2 * |ps| && OnNet(it, "k15")
    ensures forall k :: 0 <= k < |ps| ==>
      && it[2 * k] == Via(Point(BusX, ps[k].pos.y), "k15")
      && it[2 * k + 1] == Track(ps[k].pos, Point(BusX, ps[k].pos.y), "k15", Front)
  {
    if |ps| == 0 then []
    else
      var rest := Drops(ps[1..]);
      var v := Point(BusX, ps[0].pos.y);
      var it := [Via(v, "k15"), Track(ps[0].pos, v, "k15", Front)] + rest;
      assert forall i :: 2 <= i < |it| ==> it[i] == rest[i - 2];
      forall k | 1 <= k < |ps|
        ensures it[2 * k] == Via(Point(BusX, ps[k].pos.y), "k15")
        ensures it[2 * k + 1] == Track(ps[k].pos, Point(BusX, ps[k].pos.y), "k15", Front)
      {
        var j := k - 1;
        assert ps[1..][j] == ps[k];
        assert 2 * k - 2 == 2 * j;
        assert it[2 * k] == rest[2 * j] && it[2 * k + 1] == rest[2 * j + 1];
      }
      it
  }

  /** The start of the k15 bus: the left one of the first two k15 vias, the
      second on a tie. */
  function BusStart(vs: seq<Point>): (v: Point)
    requires |vs| >= 2
    ensures v == vs[0] || v == vs[1]
    ensures v.x <= vs[0].x && v.x <= vs[1].x
    ensures vs[0].x == vs[1].x ==> v == vs[1]
  {
    if vs[0].x < vs[1].x then vs[0] else vs[1]
  }

  /** The k15 bus: from its start along the back to the bus column, up the
      column to the highest separator pad, and from there a via and a front
      track to every separator pad. */
  function K15Bus(board: seq<Item>, pads: seq<Pad>): (r: Result<seq<Item>>)
    ensures r.Ok? <==> |K15Vias(board)| >= 2 && |SeparatorPads(pads)| > 0
    ensures r.Err? ==> r.error == if |K15Vias(board)| < 2 then IndexOutOfRange else EmptyMax
    ensures r.Ok? ==>
      var v := BusStart(K15Vias(board));
      var it := r.value;
      && |it| >= 2
      && it[0] == Track(v, Point(BusX, v.y), "k15", Back)
      && it[1].Track? && it[1].start == it[0].end && it[1].end.x == BusX
      && it[1].net == "k15" && it[1].layer == Back
      && it[2..] == Drops(SeparatorPads(pads))
    ensures r.Ok? ==>
      var ls := SeparatorPads(pads);
      && (exists k :: 0 <= k < |ls| && ls[k].pos.y == r.value[1].end.y)
      && (forall k :: 0 <= k < |ls| ==> ls[k].pos.y <= r.value[1].end.y)
  {
    var vs := K15Vias(board);
    if |vs| < 2 then Err(IndexOutOfRange)
    else
      var v := BusStart(vs);
      var t1 := Track(v, Point(BusX, v.y), "k15", Back);
      var ls := SeparatorPads(pads);
      var top :- MaxX(Heights(ls));
      var t2 := Track(t1.end, Point(BusX, top), "k15", Back);
      var it := [t1, t2] + Drops(ls);
      assert it[2..] == Drops(ls);
      Ok(it)
  }

  /** Every item of the k15 bus is on net k15, and its two back tracks form
      an L: across to the column, then along it. */
  lemma K15BusShape(board: seq<Item>, pads: seq<Pad>)
    ensures K15Bus(board, pads).Ok? ==>
      var it := K15Bus(board, pads).value;
      && OnNet(it, "k15") && Chained(it[..2])
      && Horizontal(it[0]) && Vertical(it[1])
      && |it| == 2 + 2 * |SeparatorPads(pads)|
  {
    if K15Bus(board, pads).Ok? {
      var it := K15Bus(board, pads).value;
      LShape(it, SeparatorPads(pads));
    }
  }

  lemma {:induction false} LShape(it: seq<Item>, ls: seq<Pad>)
    requires |it| >= 2 && it[0].Track? && it[1].Track?
    requires it[0].net == "k15" && it[1].net == "k15"
    requires it[1].start == it[0].end && it[2..] == Drops(ls)
    ensures OnNet(it, "k15") && Chained(it[..2]) && |it| == 2 + 2 * |ls|
  {
    var d := Drops(ls);
    forall i | 0 <= i < |it|
      ensures it[i].net == "k15"
    {
      if i >= 2 {
        assert it[i] == d[i - 2];
      }
    }
    var l := it[..2];
    assert l[0] == it[0] && l[1] == it[1];
  }

  /** The pad tables of the digits, in order. */
  function DigitTables(digits: seq<seq<Pad>>): (r: Result<seq<Dict<nat, Pad>>>)
    ensures r.Ok? <==> forall i :: 0 <= i < |digits| ==> DigitPads(digits[i]).Ok?
    ensures r.Err? ==> r.error == MissingKey
    ensures r.Ok? ==> |r.value| == |digits|
    ensures r.Ok? ==> forall i :: 0 <= i < |digits| ==> r.value[i] == DigitPads(digits[i]).value
  {
    MapAll(DigitPads, digits)
  }

  /** The table of digit `i`, empty for a digit that is not there, as the
      script's `defaultdict(dict)` hands out. */
  function TableAt(ts: seq<Dict<nat, Pad>>, i: nat): Dict<nat, Pad> {
    if i < |ts| then ts[i] else []
  }

  /** The tables of the first four digits. */
  function FourTables(ts: seq<Dict<nat, Pad>>): (four: seq<Dict<nat, Pad>>)
    ensures |four| == 4
  {
    [TableAt(ts, 0), TableAt(ts, 1), TableAt(ts, 2), TableAt(ts, 3)]
  }

  /** The whole cathode bus of the digits: the staples at the distances of
      `table`, then the outer bus that carries every staple via to its ring.
      Every net it routes is one of the table's. */
  function CathodeBusWith(t: Trig, digits: seq<seq<Pad>>, table: Dict<string, real>): (r: Result<seq<Item>>)
    ensures r.Ok? ==> OnNets(r.value, Keys(table))
    ensures (exists i :: 0 <= i < |digits| && DigitPads(digits[i]).Err?) ==> r == Err(MissingKey)
    ensures r.Ok? <==>
      && DigitTables(digits).Ok?
      && var four := FourTables(DigitTables(digits).value);
         && Staples(four, table, Keys(four[0]), []).Ok?
         && OuterBus(t, Staples(four, table, Keys(four[0]), []).value.1).Ok?
    ensures r.Ok? ==>
      var four := FourTables(DigitTables(digits).value);
      var s := Staples(four, table, Keys(four[0]), []).value;
      r.value == s.0 + OuterBus(t, s.1).value
  {
    var ts :- DigitTables(digits);
    var four := FourTables(ts);
    var r0 := Staples(four, table, Keys(four[0]), []);
    if r0.Err? then Err(r0.error)
    else
      var (staples, vias) := r0.value;
      var bus :- OuterBus(t, vias);
      assert forall n :: n in Keys(vias) ==> n in Keys(table);
      OnNetsJoin(staples, bus, Keys(vias));
      OnNetsWiden(staples + bus, Keys(vias), Keys(table));
      Ok(staples + bus)
  }

  /** The cathode bus with the script's own distance table. */
  function CathodeBus(t: Trig, digits: seq<seq<Pad>>): (r: Result<seq<Item>>)
    ensures r.Ok? ==> OnNets(r.value, Keys(NormDistance))
    ensures (exists i :: 0 <= i < |digits| && DigitPads(digits[i]).Err?) ==> r == Err(MissingKey)
  {
    CathodeBusWith(t, digits, NormDistance)
  }
}

=== FILE: geometry.dfy ===
/** Board geometry shared by placement and routing: points in nanometres, the
    two copper layers, the emitted track and via records, and the stand-ins for
    the floating-point trigonometry the generator delegates to `math`. */
module Geometry {

  /** Board coordinates are nanometres; the script's own parameters (radii,
      distances, board size) are millimetres and are scaled by this factor
      when they become coordinates. */
  const NmPerMm: real := 1000000.0

  datatype Point = Point(x: real, y: real)

  const Origin: Point := Point(0.0, 0.0)

  function Scale(k: real, p: Point): Point {
    Point(k * p.x, k * p.y)
  }

  datatype Layer = Front | Back

  /** One record added to the board's track list: a copper track on one layer,
      or a through via joining both layers. Width and drill are the fixed
      constants 300000 and 200000 nm and are not represented. A net is
      identified by its short name. */
  datatype Item =
    | Track(start: Point, end: Point, net: string, layer: Layer)
    | Via(pos: Point, net: string)

  /** Every item of `items` belongs to net `n`. */
  predicate OnNet(items: seq<Item>, n: string) {
    forall i :: 0 <= i < |items| ==> items[i].net == n
  }

  /** Every item of `items` is a track on `layer`. */
  predicate TracksOn(items: seq<Item>, layer: Layer) {
    forall i :: 0 <= i < |items| ==> items[i].Track? && items[i].layer == layer
  }

  /** A sequence of tracks in which each one starts where the previous ended. */
  predicate Chained(items: seq<Item>) {
    && (forall i :: 0 <= i < |items| ==> items[i].Track?)
    && (forall i {:trigger items[i].end} :: 0 <= i < |items| - 1 ==> items[i].end == items[i + 1].start)
  }

  lemma ChainedAppend(a: seq<Item>, b: seq<Item>)
    requires Chained(a) && Chained(b)
    requires |a| > 0 && |b| > 0 && a[|a| - 1].end == b[0].start
    ensures Chained(a + b)
  {
  }

  lemma OnNetAppend(a: seq<Item>, b: seq<Item>, n: string)
    requires OnNet(a, n) && OnNet(b, n)
    ensures OnNet(a + b, n)
  {
    assert forall i :: |a| <= i < |a + b| ==> (a + b)[i] == b[i - |a|];
  }

  /** The items of every group in `ss`, group after group. */
  function Flatten<T(!new)>(ss: seq<seq<T>>): (it: seq<T>)
    ensures forall x :: x in it <==> exists i :: 0 <= i < |ss| && x in ss[i]
  {
    if |ss| == 0 then []
    else
      var rest := Flatten(ss[1..]);
      assert forall i :: 1 <= i < |ss| ==> ss[i] == ss[1..][i - 1];
      ss[0] + rest
  }

  /** Groups all on net `n` flatten to items all on net `n`. */
  lemma FlattenOnNet(ss: seq<seq<Item>>, n: string)
    requires forall i :: 0 <= i < |ss| ==> OnNet(ss[i], n)
    ensures OnNet(Flatten(ss), n)
  {
    var it := Flatten(ss);
    forall j | 0 <= j < |it|
      ensures it[j].net == n
    {
      assert it[j] in it;
      var i :| 0 <= i < |ss| && it[j] in ss[i];
      var k :| 0 <= k < |ss[i]| && ss[i][k] == it[j];
    }
  }

  /** The two endpoints of a track share an x coordinate. */
  predicate Vertical(t: Item) {
    t.Track? && t.start.x == t.end.x
  }

  /** The two endpoints of a track share a y coordinate. */
  predicate Horizontal(t: Item) {
    t.Track? && t.start.y == t.end.y
  }

  /** The integral part produced by numpy's `modf`: truncation toward zero. */
  function Trunc(x: real): (n: int)
    ensures x >= 0.0 ==> n as real <= x < n as real + 1.0
    ensures x < 0.0 ==> n as real - 1.0 < x <= n as real
  {
    if x >= 0.0 then x.Floor else -((-x).Floor)
  }

  /** numpy's `modf` returns a non-zero fractional part. */
  predicate Fractional(x: real) {
    x != Trunc(x) as real
  }

  /** The least integer not below `x`. */
  function Ceil(x: real): (n: int)
    ensures x <= n as real < x + 1.0
  {
    if x.Floor as real == x then x.Floor else x.Floor + 1
  }

  lemma TruncOfNonNegative(x: real)
    requires x >= 0.0
    ensures Trunc(x) == x.Floor
    ensures Fractional(x) <==> x.Floor as real != x
    ensures Ceil(x) == if Fractional(x) then x.Floor + 1 else x.Floor
  {
  }

  /** Python's `x % 60` on a float: the remainder has the sign of the divisor. */
  function Mod60(x: real): (m: real)
    ensures 0.0 <= m < 60.0
    ensures (x - m) / 60.0 == ((x - m) / 60.0).Floor as real
  {
    var q := (x / 60.0).Floor;
    assert q as real <= x / 60.0 < q as real + 1.0;
    x - 60.0 * q as real
  }

  lemma Mod60Shift(x: real, k: int)
    ensures Mod60(x + 60.0 * k as real) == Mod60(x)
  {
    var y := x + 60.0 * k as real;
    assert y / 60.0 == x / 60.0 + k as real;
    assert (y / 60.0).Floor == (x / 60.0).Floor + k;
  }

  lemma Mod60Identity(x: real)
    requires 0.0 <= x < 60.0
    ensures Mod60(x) == x
  {
    assert (x / 60.0).Floor == 0;
  }

  /** `numpy.sign`, as the integer the script converts it to. */
  function Sign(x: real): (s: int)
    ensures s == -1 || s == 0 || s == 1
    ensures s as real * x == Abs(x)
    ensures s == 0 <==> x == 0.0
  {
    if x > 0.0 then 1 else if x < 0.0 then -1 else 0
  }

  function Abs(x: real): (a: real)
    ensures a >= 0.0 && (a == x || a == -x)
  {
    if x < 0.0 then -x else x
  }

  /** Squared Euclidean distance. The script compares the `sqrt` of this
      sum, which is monotone, so comparisons of the two agree. */
  function DistanceSquared(a: Point, b: Point): (d: real)
    ensures d == (a.x - b.x) * (a.x - b.x) + (a.y - b.y) * (a.y - b.y)
    ensures d >= 0.0
    ensures a == b ==> d == 0.0
    ensures d == 0.0 ==> a == b
  {
    var dx := a.x - b.x;
    var dy := a.y - b.y;
    SquaresSum(dx, dy);
    SquaresSumPositive(dx, dy);
    dx * dx + dy * dy
  }

  /** `r` is strictly positive. */
  predicate Positive(r: real) {
    r > 0.0
  }

  /** A sum of two squares is never negative, and positive unless both are
      zero. */
  lemma SquaresSum(u: real, v: real)
    ensures u * u + v * v >= 0.0
    ensures u != 0.0 || v != 0.0 ==> u * u + v * v > 0.0
  {
    SquareSign(u);
    SquareSign(v);
  }

  /** `SquaresSum` with the sum kept whole, so that a caller comparing it
      with zero finds it as one term. */
  lemma SquaresSumPositive(u: real, v: real)
    ensures u != 0.0 || v != 0.0 ==> Positive(u * u + v * v)
  {
    SquaresSum(u, v);
  }

  /** A square is never negative, and zero only for zero. */
  lemma SquareSign(v: real)
    ensures v * v >= 0.0
    ensures v != 0.0 ==> v * v > 0.0
  {
    if v < 0.0 {
      assert v * v == (-v) * (-v);
    }
  }

  /** The trigonometry the generator computes in floating point, as opaque
      functions supplied by the caller.
      - `polar(r, a)` is `(r·sin a, r·cos a)`, in nanometres, for a radius of
        `r` millimetres and an angle of `a` degrees;
      - `hit(r, m)` is `get_ring_intersection(r, m, 1)`: the point where the
        ray with slope parameter `m` meets the 60-gon of radius `r`
        millimetres, computed from `cos(tan m)`, `sin(tan m)` and the
        apothem `r·cos(π/60)`;
      - `slopeOf(p)` is `atan(p·π/30 − π/2)`, the slope parameter used for a
        clock position;
      - `norm(p)` is the distance of `p` from the origin in millimetres;
      - `escapeSlope(k)` is the tangent of the connector pad angle
        `(k − 8.5)·π/30 − π/2`, and `escapePoint(k, r)` the point at that
        angle and at distance `r·cos(π/60)` millimetres. */
  datatype Trig = Trig(
    polar: (real, real) -> Point,
    hit: (real, real) -> Point,
    slopeOf: real -> real,
    norm: Point -> real,
    escapeSlope: int -> real,
    escapePoint: (int, real) -> Point)
}

=== FILE: nets.dfy ===
/** Footprints, pads and the grouping of pads into nets. Every pad of every
    footprint is appended, in discovery order, to the list of the net named
    by its short net name; the nets whose names start with `k` drive LED
    cathodes and those starting with `a` drive anodes. */
module Nets {
  import opened Wrappers
  import opened Geometry
  import opened OrderedDict

  /** A pad: the reference and position of its footprint, its number (pad
      names on this board are numbers), its net and its position. */
  datatype Pad = Pad(parent: string, parentPos: Point, number: nat, net: string, pos: Point)

  datatype Footprint = Footprint(reference: string, pos: Point, pads: seq<Pad>)

  /** The pads of all footprints, footprint by footprint. */
  function AllPads(fps: seq<Footprint>): (pads: seq<Pad>)
    ensures forall p :: p in pads <==> exists f :: 0 <= f < |fps| && p in fps[f].pads
  {
    if |fps| == 0 then []
    else
      assert forall f :: 1 <= f < |fps| ==> fps[f] == fps[1..][f - 1];
      fps[0].pads + AllPads(fps[1..])
  }

  /** The pads of all footprints are their pad lists one after another, in
      footprint order. */
  lemma {:induction false} AllPadsInOrder(fps: seq<Footprint>)
    ensures AllPads(fps) == Flatten(seq(|fps|, i requires 0 <= i < |fps| => fps[i].pads))
  {
    if |fps| > 0 {
      AllPadsInOrder(fps[1..]);
      var ss := seq(|fps|, i requires 0 <= i < |fps| => fps[i].pads);
      assert ss[1..] == seq(|fps[1..]|, i requires 0 <= i < |fps[1..]| => fps[1..][i].pads);
    }
  }

  /** The net names used by any pad of `pads`. */
  function NetNames(pads: seq<Pad>): set<string> {
    set i | 0 <= i < |pads| :: pads[i].net
  }

  /** The pads of `pads` on net `n`, in their order. */
  function OnNetPads(pads: seq<Pad>, n: string): seq<Pad> {
    if |pads| == 0 then []
    else (if pads[0].net == n then [pads[0]] else []) + OnNetPads(pads[1..], n)
  }

  /** The position of the first pad on net `n`. */
  function FirstUse(pads: seq<Pad>, n: string): (i: nat)
    requires n in NetNames(pads)
    ensures i < |pads| && pads[i].net == n
    ensures forall j :: 0 <= j < i ==> pads[j].net != n
  {
    if pads[0].net == n then 0
    else
      assert n in NetNames(pads[1..]) by {
        var k :| 0 <= k < |pads| && pads[k].net == n;
        assert pads[1..][k - 1] == pads[k];
      }
      1 + FirstUse(pads[1..], n)
  }

  type Nets = Dict<string, seq<Pad>>

  /** `nets[pad.GetShortNetname()].append(pad)` on a `defaultdict(list)`. */
  function AddToNet(g: Nets, p: Pad): (h: Nets)
    ensures Keys(h) == if p.net in Keys(g) then Keys(g) else Keys(g) + [p.net]
    ensures DistinctKeys(g) ==> DistinctKeys(h)
    ensures Get(h, p.net) == Some(Get(g, p.net).GetOr([]) + [p])
    ensures forall n :: n != p.net ==> Get(h, n) == Get(g, n)
  {
    Put(g, p.net, Get(g, p.net).GetOr([]) + [p])
  }

  /** The grouping loop over all pads. */
  function GroupByNet(pads: seq<Pad>): (g: Nets)
    ensures DistinctKeys(g)
    ensures forall n :: n in Keys(g) <==> n in NetNames(pads)
  {
    if |pads| == 0 then []
    else
      var init := pads[..|pads| - 1];
      var p := pads[|pads| - 1];
      NetNamesSnoc(pads);
      AddToNet(GroupByNet(init), p)
  }

  lemma NetNamesSnoc(pads: seq<Pad>)
    requires |pads| > 0
    ensures NetNames(pads) == NetNames(pads[..|pads| - 1]) + {pads[|pads| - 1].net}
  {
    var init := pads[..|pads| - 1];
    assert forall i :: 0 <= i < |init| ==> init[i] == pads[i];
  }

  lemma OnNetPadsAppend(pads: seq<Pad>, p: Pad, n: string)
    ensures OnNetPads(pads + [p], n) == OnNetPads(pads, n) + (if p.net == n then [p] else [])
  {
    if |pads| > 0 {
      assert (pads + [p])[1..] == pads[1..] + [p];
    }
  }

  lemma OnNetPadsNone(pads: seq<Pad>, n: string)
    requires n !in NetNames(pads)
    ensures OnNetPads(pads, n) == []
  {
    if |pads| > 0 {
      assert NetNames(pads[1..]) <= NetNames(pads) by {
        forall i | 0 <= i < |pads[1..]| ensures pads[1..][i] == pads[i + 1] {}
      }
    }
  }

  /** Each net lists exactly the pads on it, in discovery order; a name no
      pad uses has no entry. */
  lemma {:induction false} GroupContents(pads: seq<Pad>, n: string)
    ensures Get(GroupByNet(pads), n)
            == if n in NetNames(pads) then Some(OnNetPads(pads, n)) else None
  {
    if |pads| > 0 {
      var init := pads[..|pads| - 1];
      var p := pads[|pads| - 1];
      assert pads == init + [p];
      GroupContents(init, n);
      GroupStep(init, p, n, GroupByNet(init));
    }
  }

  /** Adding one pad keeps each net's entry equal to the pads on it. */
  lemma GroupStep(init: seq<Pad>, p: Pad, n: string, g: Nets)
    requires Get(g, n) == if n in NetNames(init) then Some(OnNetPads(init, n)) else None
    ensures Get(AddToNet(g, p), n)
            == if n in NetNames(init + [p]) then Some(OnNetPads(init + [p], n)) else None
  {
    var pads := init + [p];
    assert pads[..|pads| - 1] == init;
    NetNamesSnoc(pads);
    OnNetPadsAppend(init, p, n);
    if p.net == n {
      if n !in NetNames(init) {
        OnNetPadsNone(init, n);
      }
      assert Get(g, n).GetOr([]) == OnNetPads(init, n);
      assert n in NetNames(pads);
    } else {
      assert (n in NetNames(pads)) == (n in NetNames(init));
      assert OnNetPads(pads, n) == OnNetPads(init, n);
      assert Get(AddToNet(g, p), n) == if n in NetNames(init) then Some(OnNetPads(init, n)) else None;
      assert Get(AddToNet(g, p), n) == if n in NetNames(pads) then Some(OnNetPads(pads, n)) else None;
    }
  }

  /** The names `ks` are used by `pads`, and in the order of their first
      use. */
  predicate InFirstUseOrder(pads: seq<Pad>, ks: seq<string>) {
    && (forall i :: 0 <= i < |ks| ==> ks[i] in NetNames(pads))
    && (forall i, j :: 0 <= i < j < |ks| ==> FirstUse(pads, ks[i]) < FirstUse(pads, ks[j]))
  }

  /** Nets are listed in the order their first pad was discovered. */
  lemma {:induction false} GroupOrder(pads: seq<Pad>)
    ensures InFirstUseOrder(pads, Keys(GroupByNet(pads)))
  {
    if |pads| > 0 {
      var init := pads[..|pads| - 1];
      var p := pads[|pads| - 1];
      var g0 := GroupByNet(init);
      assert GroupByNet(pads) == AddToNet(g0, p);
      GroupOrder(init);
      NetNamesSnoc(pads);
      OrderExtends(pads, Keys(g0));
      if p.net !in Keys(g0) {
        OrderAppendNew(pads, Keys(g0));
      }
    }
  }

  /** First uses among all but the last pad are first uses among all pads. */
  lemma OrderExtends(pads: seq<Pad>, ks: seq<string>)
    requires |pads| > 0 && InFirstUseOrder(pads[..|pads| - 1], ks)
    ensures InFirstUseOrder(pads, ks)
  {
    var init := pads[..|pads| - 1];
    NetNamesSnoc(pads);
    forall n | n in NetNames(init)
      ensures FirstUse(pads, n) == FirstUse(init, n)
    {
      var k := FirstUse(init, n);
      assert pads[k] == init[k];
      FirstUseAt(pads, n, k);
    }
  }

  /** A name first used by the last pad comes after every earlier one. */
  lemma OrderAppendNew(pads: seq<Pad>, ks: seq<string>)
    requires |pads| > 0 && InFirstUseOrder(pads, ks)
    requires pads[|pads| - 1].net !in NetNames(pads[..|pads| - 1])
    requires forall i :: 0 <= i < |ks| ==> ks[i] in NetNames(pads[..|pads| - 1])
    ensures InFirstUseOrder(pads, ks + [pads[|pads| - 1].net])
  {
    var init := pads[..|pads| - 1];
    var n := pads[|pads| - 1].net;
    NetNamesSnoc(pads);
    forall j | 0 <= j < |init|
      ensures pads[j].net != n
    {
      assert init[j] == pads[j];
    }
    FirstUseAt(pads, n, |pads| - 1);
    var ks' := ks + [n];
    forall i | 0 <= i < |ks|
      ensures FirstUse(pads, ks[i]) < |pads| - 1
    {
    }
  }

  lemma FirstUseAt(pads: seq<Pad>, n: string, k: nat)
    requires k < |pads| && pads[k].net == n
    requires forall j :: 0 <= j < k ==> pads[j].net != n
    ensures n in NetNames(pads) && FirstUse(pads, n) == k
  {
    var f := FirstUse(pads, n);
    assert !(f < k) && !(k < f);
  }

  predicate StartsWith(name: string, c: char) {
    |name| > 0 && name[0] == c
  }

  /** The nets whose names start with `c`, in their order. */
  function Select(g: Nets, c: char): (h: Nets)
    ensures forall n :: n in Keys(h) <==> n in Keys(g) && StartsWith(n, c)
    ensures DistinctKeys(g) ==> DistinctKeys(h)
    ensures DistinctKeys(g) ==> forall n :: StartsWith(n, c) ==> Get(h, n) == Get(g, n)
  {
    if |g| == 0 then []
    else
      var rest := Select(g[1..], c);
      assert Keys(g) == [g[0].0] + Keys(g[1..]);
      if StartsWith(g[0].0, c) then
        var h := [g[0]] + rest;
        assert h[1..] == rest;
        assert Keys(h) == [g[0].0] + Keys(rest);
        assert DistinctKeys(g) ==> DistinctKeys(g[1..]) && g[0].0 !in Keys(g[1..]);
        assert forall n :: Get(h, n) == if n == g[0].0 then Some(g[0].1) else Get(rest, n) by {
          forall n ensures Get(h, n) == if n == g[0].0 then Some(g[0].1) else Get(rest, n) {
            GetCons(g[0], rest, n);
          }
        }
        assert forall n :: Get(g, n) == if n == g[0].0 then Some(g[0].1) else Get(g[1..], n) by {
          forall n ensures Get(g, n) == if n == g[0].0 then Some(g[0].1) else Get(g[1..], n) {
            assert g == [g[0]] + g[1..];
            GetCons(g[0], g[1..], n);
          }
        }
        h
      else
        assert DistinctKeys(g) ==> DistinctKeys(g[1..]);
        assert forall n :: n != g[0].0 ==> Get(g, n) == Get(g[1..], n) by {
          forall n | n != g[0].0 ensures Get(g, n) == Get(g[1..], n) {
            assert g == [g[0]] + g[1..];
            GetCons(g[0], g[1..], n);
          }
        }
        rest
  }

  /** The selected nets keep their order: the result is every entry whose
      name starts with `c`, one after another. */
  lemma {:induction false} SelectInOrder(g: Nets, c: char)
    ensures Select(g, c) == Flatten(seq(|g|, i requires 0 <= i < |g| => if StartsWith(g[i].0, c) then [g[i]] else []))
  {
    if |g| > 0 {
      SelectInOrder(g[1..], c);
      var ss := seq(|g|, i requires 0 <= i < |g| => if StartsWith(g[i].0, c) then [g[i]] else []);
      assert ss[1..] == seq(|g[1..]|, i requires 0 <= i < |g[1..]| => if StartsWith(g[1..][i].0, c) then [g[1..][i]] else []);
    }
  }

  function Cathodes(g: Nets): Nets {
    Select(g, 'k')
  }

  function Anodes(g: Nets): Nets {
    Select(g, 'a')
  }

  /** No net is both a cathode and an anode net, and a net that is neither
      is routed by neither group. */
  lemma CathodeAnodeSplit(g: Nets, n: string)
    requires DistinctKeys(g)
    ensures !(n in Keys(Cathodes(g)) && n in Keys(Anodes(g)))
    ensures n in Keys(Cathodes(g)) <==> n in Keys(g) && StartsWith(n, 'k')
    ensures n in Keys(Anodes(g)) <==> n in Keys(g) && StartsWith(n, 'a')
  {
  }
}

=== FILE: ordered_dict.dfy ===
/** Python's insertion-ordered `dict` as an association list. Assigning to an
    existing key replaces its value in place, assigning to a new key appends
    it, and `pop` removes a key or raises `KeyError`. The script relies on
    this order (dicts keep insertion order from Python 3.7 on). */
module OrderedDict {
  import opened Wrappers

  type Dict<K, V> = seq<(K, V)>

  function Keys<K, V>(d: Dict<K, V>): (ks: seq<K>)
    ensures |ks| == |d|
    ensures forall i :: 0 <= i < |d| ==> ks[i] == d[i].0
  {
    if |d| == 0 then [] else [d[0].0] + Keys(d[1..])
  }

  function Values<K, V>(d: Dict<K, V>): (vs: seq<V>)
    ensures |vs| == |d|
    ensures forall i :: 0 <= i < |d| ==> vs[i] == d[i].1
  {
    if |d| == 0 then [] else [d[0].1] + Values(d[1..])
  }

  /** No key occurs twice: the invariant every dict keeps. */
  predicate DistinctKeys<K(==), V>(d: Dict<K, V>) {
    forall i, j :: 0 <= i < j < |d| ==> d[i].0 != d[j].0
  }

  /** The position of `k` among the keys of `d`: its first occurrence. */
  function IndexOf<K(==), V>(d: Dict<K, V>, k: K): (i: nat)
    requires k in Keys(d)
    ensures i < |d| && d[i].0 == k
    ensures forall j :: 0 <= j < i ==> d[j].0 != k
  {
    assert Keys(d) == [d[0].0] + Keys(d[1..]);
    if d[0].0 == k then 0 else 1 + IndexOf(d[1..], k)
  }

  /** The first entry holding `k` is the one `IndexOf` finds. */
  lemma FirstIndex<K, V>(d: Dict<K, V>, k: K, i: nat)
    requires i < |d| && d[i].0 == k
    requires forall j :: 0 <= j < i ==> d[j].0 != k
    ensures k in Keys(d) && IndexOf(d, k) == i
  {
    assert Keys(d)[i] == k;
    var n := IndexOf(d, k);
    assert !(n < i) && !(i < n);
  }

  /** `d.get(k)`. */
  function Get<K(==), V>(d: Dict<K, V>, k: K): (o: Option<V>)
    ensures o.Some? <==> k in Keys(d)
    ensures DistinctKeys(d) ==> forall i :: 0 <= i < |d| && d[i].0 == k ==> o == Some(d[i].1)
  {
    if k in Keys(d) then
      var i := IndexOf(d, k);
      assert DistinctKeys(d) ==> forall j :: 0 <= j < |d| && d[j].0 == k ==> j == i;
      Some(d[i].1)
    else None
  }

  /** Looking up a key in a dict with one more entry in front. */
  lemma GetCons<K, V>(e: (K, V), d: Dict<K, V>, k: K)
    ensures Get([e] + d, k) == if e.0 == k then Some(e.1) else Get(d, k)
  {
    var ed := [e] + d;
    assert Keys(ed) == [e.0] + Keys(d);
    assert ed[1..] == d;
    if e.0 != k && k in Keys(d) {
      FirstIndex(ed, k, IndexOf(d, k) + 1);
    }
  }

  /** `d[k] = v`. */
  function Put<K(==,!new), V>(d: Dict<K, V>, k: K, v: V): (e: Dict<K, V>)
    ensures Keys(e) == if k in Keys(d) then Keys(d) else Keys(d) + [k]
    ensures Get(e, k) == Some(v)
    ensures DistinctKeys(d) ==> DistinctKeys(e)
    ensures forall j :: j != k ==> Get(e, j) == Get(d, j)
  {
    if k in Keys(d) then PutExisting(d, k, v) else PutNew(d, k, v)
  }

  function PutExisting<K(==,!new), V>(d: Dict<K, V>, k: K, v: V): (e: Dict<K, V>)
    requires k in Keys(d)
    ensures Keys(e) == Keys(d)
    ensures Get(e, k) == Some(v)
    ensures DistinctKeys(d) ==> DistinctKeys(e)
    ensures forall j :: j != k ==> Get(e, j) == Get(d, j)
  {
    var i := IndexOf(d, k);
    var e := d[i := (k, v)];
    assert Keys(e) == Keys(d);
    forall j | j != k && j in Keys(d)
      ensures IndexOf(e, j) == IndexOf(d, j)
    {
      FirstIndex(e, j, IndexOf(d, j));
    }
    FirstIndex(e, k, i);
    e
  }

  function PutNew<K(==,!new), V>(d: Dict<K, V>, k: K, v: V): (e: Dict<K, V>)
    requires k !in Keys(d)
    ensures Keys(e) == Keys(d) + [k]
    ensures Get(e, k) == Some(v)
    ensures DistinctKeys(d) ==> DistinctKeys(e)
    ensures forall j :: j != k ==> Get(e, j) == Get(d, j)
  {
    var e := d + [(k, v)];
    assert Keys(e) == Keys(d) + [k];
    forall j | j in Keys(d)
      ensures IndexOf(e, j) == IndexOf(d, j)
    {
      FirstIndex(e, j, IndexOf(d, j));
    }
    FirstIndex(e, k, |d|);
    e
  }

  /** `d.pop(k)`: the value of `k` and the dict without it. */
  function Pop<K(==,!new), V>(d: Dict<K, V>, k: K): (r: Result<(V, Dict<K, V>)>)
    ensures r.Ok? <==> k in Keys(d)
    ensures r.Err? ==> r.error == MissingKey
    ensures r.Ok? ==>
      && Get(d, k) == Some(r.value.0)
      && Keys(r.value.1) == Keys(d)[..IndexOf(d, k)] + Keys(d)[IndexOf(d, k) + 1..]
    ensures r.Ok? && DistinctKeys(d) ==>
      && DistinctKeys(r.value.1)
      && Get(r.value.1, k) == None
      && forall j :: j != k ==> Get(r.value.1, j) == Get(d, j)
  {
    if k !in Keys(d) then Err(MissingKey)
    else
      var i := IndexOf(d, k);
      KeysSplice(d, i);
      if DistinctKeys(d) then
        GetSplice(d, i);
        Ok((d[i].1, d[..i] + d[i + 1..]))
      else
        Ok((d[i].1, d[..i] + d[i + 1..]))
  }

  /** Entry `a` of `d` with entry `i` removed is entry `Skip(a, i)` of `d`. */
  lemma SpliceAt<K, V>(d: Dict<K, V>, i: nat)
    requires i < |d|
    ensures |d[..i] + d[i + 1..]| == |d| - 1
    ensures forall a {:trigger (d[..i] + d[i + 1..])[a]} :: 0 <= a < |d| - 1 ==>
      (d[..i] + d[i + 1..])[a] == d[Skip(a, i)]
  {
  }

  /** Removing an entry removes its key from the key list. */
  lemma KeysSplice<K, V>(d: Dict<K, V>, i: nat)
    requires i < |d|
    ensures Keys(d[..i] + d[i + 1..]) == Keys(d)[..i] + Keys(d)[i + 1..]
  {
    SpliceAt(d, i);
  }

  /** Removing entry `i` of a dict without repeated keys removes exactly the
      key of that entry. */
  lemma GetSplice<K, V>(d: Dict<K, V>, i: nat)
    requires i < |d| && DistinctKeys(d)
    ensures var e := d[..i] + d[i + 1..];
      && DistinctKeys(e)
      && d[i].0 !in Keys(e)
      && forall j :: j != d[i].0 ==> Get(e, j) == Get(d, j)
  {
    var e := d[..i] + d[i + 1..];
    SpliceAt(d, i);
    forall a, b | 0 <= a < b < |e|
      ensures e[a].0 != e[b].0
    {
      assert Skip(a, i) < Skip(b, i);
    }
    forall a | 0 <= a < |e|
      ensures e[a].0 != d[i].0
    {
      assert Skip(a, i) != i;
    }
    forall j | j != d[i].0
      ensures Get(e, j) == Get(d, j)
    {
      GetSpliceOther(d, i, j);
    }
  }

  /** After removing entry `i`, any other key is found where it was. */
  lemma GetSpliceOther<K, V>(d: Dict<K, V>, i: nat, j: K)
    requires i < |d| && DistinctKeys(d) && j != d[i].0
    ensures Get(d[..i] + d[i + 1..], j) == Get(d, j)
  {
    if j in Keys(d) {
      var a := IndexOf(d, j);
      var b := if a < i then a else a - 1;
      ShiftedEntry(d, i, a);
      FirstIndex(d[..i] + d[i + 1..], j, b);
    } else {
      KeysSplice(d, i);
      var ks := Keys(d);
      assert j !in ks[..i] && j !in ks[i + 1..] by {
        assert forall x :: x in ks[..i] || x in ks[i + 1..] ==> x in ks;
      }
    }
  }

  /** Entry `a` of `d` survives the removal of entry `i`, one place lower
      when it came after it, and no earlier entry shares its key. */
  lemma ShiftedEntry<K, V>(d: Dict<K, V>, i: nat, a: nat)
    requires i < |d| && a < |d| && a != i && DistinctKeys(d)
    ensures var e := d[..i] + d[i + 1..];
      var b := if a < i then a else a - 1;
      && b < |e| && e[b] == d[a]
      && forall c :: 0 <= c < b ==> e[c].0 != d[a].0
  {
    SpliceAt(d, i);
  }

  /** `ks` with every occurrence of `k` left out, the rest in order. */
  function Without<K(==,!new)>(ks: seq<K>, k: K): (ms: seq<K>)
    ensures forall x :: x in ms <==> x in ks && x != k
  {
    if |ks| == 0 then []
    else (if ks[0] == k then [] else [ks[0]]) + Without(ks[1..], k)
  }

  /** Leaving out a key that is absent changes nothing. */
  lemma WithoutAbsent<K(!new)>(ks: seq<K>, k: K)
    requires k !in ks
    ensures Without(ks, k) == ks
  {
  }

  /** In a key list without repeats, cutting out position `i` leaves out
      exactly the key there. */
  lemma {:induction false} CutAt<K(!new)>(ks: seq<K>, i: nat)
    requires i < |ks| && forall a, b :: 0 <= a < b < |ks| ==> ks[a] != ks[b]
    ensures ks[..i] + ks[i + 1..] == Without(ks, ks[i])
  {
    if i == 0 {
      assert ks[..0] + ks[1..] == ks[1..];
      assert ks[0] !in ks[1..] by {
        assert forall j :: 0 <= j < |ks[1..]| ==> ks[1..][j] == ks[j + 1];
      }
      WithoutAbsent(ks[1..], ks[0]);
    } else {
      CutAt(ks[1..], i - 1);
      assert ks[1..][i - 1] == ks[i];
      assert ks[..i] + ks[i + 1..] == [ks[0]] + (ks[1..][..i - 1] + ks[1..][i..]);
    }
  }

  /** `pop` on a dict without repeated keys leaves the other keys in their
      order. */
  lemma PopKeys<K(!new), V>(d: Dict<K, V>, k: K)
    requires DistinctKeys(d)
    ensures Pop(d, k).Ok? ==> Keys(Pop(d, k).value.1) == Without(Keys(d), k)
  {
    if k in Keys(d) {
      CutAt(Keys(d), IndexOf(d, k));
    }
  }

  /** The index in the original of entry `a` once entry `i` is removed. */
  function Skip(a: nat, i: nat): nat {
    if a < i then a else a + 1
  }
}

=== FILE: placement.dfy ===
/** Placement of the footprints: the sixty seconds LEDs and twelve hour LEDs
    on two circles, the four seven-segment digits in a row, the two
    separator LEDs between them, the two connectors, and the square board
    outline. Lengths are millimetres until they become coordinates. */
module Placement {
  import opened Wrappers
  import opened Geometry
  import opened ClockFace
  import opened Annotation

  /** Radius of the seconds circle. */
  const Radius: real := 42.0
  /** Radius of the hours circle, `Radius * 1.1`. */
  const HourRadius: real := 46.2
  const DigitSpace: real := 3.0
  const DigitWidth: real := 10.0
  const DigitHigh: real := 10.0
  /** The fixed orientation, in tenths of a degree, of digits, separators
      and connectors. */
  const FixedRotation: real := 2700.0
  const BoardLength: real := 100.0

  datatype Placement = Placement(pos: Point, rotation: real)

  /** Seconds LED `D<i>` sits at clock position `i − 1`. */
  function SecondPosition(i: int): int {
    i - 1
  }

  /** Hour LED `D<i>` sits at clock position `(i − 61)·5`. */
  function HourPosition(i: int): int {
    (i - 61) * 5
  }

  /** The sixty seconds LEDs take the sixty clock positions, one each. */
  lemma SecondPositions(i: int, j: int)
    requires 1 <= i <= 60 && 1 <= j <= 60
    ensures 0 <= SecondPosition(i) < 60
    ensures SecondPosition(i) == SecondPosition(j) ==> i == j
  {
  }

  /** The twelve hour LEDs take every fifth clock position, one each, and
      the position agrees with the `i % 61 * 5` the hour router uses. */
  lemma HourPositions(i: int, j: int)
    requires 61 <= i <= 72 && 61 <= j <= 72
    ensures 0 <= HourPosition(i) <= 55 && HourPosition(i) % 5 == 0
    ensures HourPosition(i) == (i % 61) * 5
    ensures HourPosition(i) == HourPosition(j) ==> i == j
  {
  }

  /** The placement of seconds LED `reference`. */
  function PlaceSecond(t: Trig, reference: string): (r: Result<Placement>)
    ensures r.Ok? <==> SplitAnnotation(reference).Ok?
    ensures r.Ok? && 1 <= SplitAnnotation(reference).value.1 <= 60 ==>
      var i := SplitAnnotation(reference).value.1;
      r.value == Placement(Vertex(t, Radius, i - 1), -60.0 * (i - 1) as real - 2700.0)
  {
    match SplitAnnotation(reference)
    case Err(e) => Err(e)
    case Ok((_, i)) =>
      var p := SecondPosition(i) as real;
      assert 1 <= i <= 60 ==> Mod60(p) == p by {
        if 1 <= i <= 60 {
          Mod60Identity(p);
        }
      }
      Ok(Placement(Polar(t, Radius, p), RingRotation(p)))
  }

  /** Seconds LED `D<i>` faces outward at clock position `i − 1`. */
  lemma SecondsPlacement(t: Trig, i: nat)
    requires 1 <= i <= 60
    ensures PlaceSecond(t, "D" + NatToDigits(i))
            == Ok(Placement(Vertex(t, Radius, i - 1), -60.0 * (i - 1) as real - 2700.0))
  {
    SplitName("D", i, "D" + NatToDigits(i));
  }

  /** The placement of hour LED `reference`. */
  function PlaceHour(t: Trig, reference: string): (r: Result<Placement>)
    ensures r.Ok? <==> SplitAnnotation(reference).Ok?
    ensures r.Ok? && 61 <= SplitAnnotation(reference).value.1 <= 72 ==>
      var i := SplitAnnotation(reference).value.1;
      r.value == Placement(Polar(t, HourRadius, ((i - 61) * 5) as real), -300.0 * (i - 61) as real - 2700.0)
  {
    match SplitAnnotation(reference)
    case Err(e) => Err(e)
    case Ok((_, i)) =>
      var p := HourPosition(i) as real;
      assert 61 <= i <= 72 ==> Mod60(p) == p by {
        if 61 <= i <= 72 {
          Mod60Identity(p);
        }
      }
      Ok(Placement(Polar(t, HourRadius, p), RingRotation(p)))
  }

  /** The x offset of digit slot `k`, `k` in 0..3, in millimetres: digits of
      width `w` separated by `s`, symmetric about the centre, with a double
      gap in the middle for the separators. */
  function DigitSlot(k: int, s: real, w: real): real
    requires 0 <= k < 4
  {
    if k == 0 then -1.5 * w - 2.0 * s
    else if k == 1 then -0.5 * w - s
    else if k == 2 then 0.5 * w + s
    else 1.5 * w + 2.0 * s
  }

  /** `calc_dig_location_from_position(position, space, width)`. The table of
      multiples of the width is built before it is indexed, so a zero width
      fails first; Python's negative indices count from the end of the
      table. */
  function DigitOffset(position: int, space: real, width: real): (r: Result<Point>)
    ensures r.Ok? <==> width != 0.0 && -4 <= position < 4
    ensures r.Err? ==> r.error == (if width == 0.0 then DivisionByZero else IndexOutOfRange)
    ensures r.Ok? ==> r.value == Point(DigitSlot(position % 4, space, width) * NmPerMm, 0.0)
  {
    if width == 0.0 then Err(DivisionByZero)
    else
      var q := space / width;
      var table := [-1.5 - q * 2.0, -0.5 - q, 0.5 + q, 1.5 + q * 2.0];
      if !(-4 <= position < 4) then Err(IndexOutOfRange)
      else
        var k := if position < 0 then position + 4 else position;
        assert q * width == space;
        assert k == position % 4;
        Ok(Point(table[k] * width * NmPerMm, 0.0))
  }

  /** The digit row is symmetric about the centre. */
  lemma DigitSlotsSymmetric(k: int, s: real, w: real)
    requires 0 <= k < 4
    ensures DigitSlot(3 - k, s, w) == -DigitSlot(k, s, w)
  {
  }

  /** Adjacent slots are one width plus one gap apart, two gaps in the
      middle, so the row is strictly increasing for a positive width and a
      non-negative gap. */
  lemma DigitSlotsIncreasing(s: real, w: real)
    ensures DigitSlot(1, s, w) - DigitSlot(0, s, w) == w + s
    ensures DigitSlot(2, s, w) - DigitSlot(1, s, w) == w + 2.0 * s
    ensures DigitSlot(3, s, w) - DigitSlot(2, s, w) == w + s
    ensures w > 0.0 && s >= 0.0 ==>
      forall i, j :: 0 <= i < j < 4 ==> DigitSlot(i, s, w) < DigitSlot(j, s, w)
  {
  }

  /** With the board's gap and width the digits sit at −21, −8, 8 and 21 mm. */
  lemma DigitRow()
    ensures DigitOffset(0, DigitSpace, DigitWidth) == Ok(Point(-21000000.0, 0.0))
    ensures DigitOffset(1, DigitSpace, DigitWidth) == Ok(Point(-8000000.0, 0.0))
    ensures DigitOffset(2, DigitSpace, DigitWidth) == Ok(Point(8000000.0, 0.0))
    ensures DigitOffset(3, DigitSpace, DigitWidth) == Ok(Point(21000000.0, 0.0))
  {
  }

  /** The placement of digit `reference` (`U1`…`U4`). */
  function PlaceDigit(reference: string): (r: Result<Placement>)
    ensures r.Ok? <==> SplitAnnotation(reference).Ok? && SplitAnnotation(reference).value.1 <= 4
    ensures r.Ok? ==>
      var i := SplitAnnotation(reference).value.1;
      r.value == Placement(Point(DigitSlot((i - 1) % 4, DigitSpace, DigitWidth) * NmPerMm, 0.0), FixedRotation)
  {
    var (_, i) :- SplitAnnotation(reference);
    var pos :- DigitOffset(i - 1, DigitSpace, DigitWidth);
    Ok(Placement(pos, FixedRotation))
  }

  /** The placement of separator LED `reference`: `D73` at y = +4 mm,
      any other at y = −4 mm. The number is parsed but not used. */
  function PlaceSeparator(reference: string): (r: Result<Placement>)
    ensures r.Ok? <==> SplitAnnotation(reference).Ok?
    ensures r.Ok? ==> r.value.rotation == FixedRotation && r.value.pos.x == 0.0
    ensures r.Ok? ==> r.value.pos.y == (if reference == "D73" then 4000000.0 else -4000000.0)
  {
    var _ :- SplitAnnotation(reference);
    var sign := if reference == "D73" then 1.0 else -1.0;
    Ok(Placement(Point(0.0, sign * DigitHigh * 0.4 * NmPerMm), FixedRotation))
  }

  /** The placement of connector `reference`: `J1` at y = −15 mm, any
      other at y = +15 mm. */
  function PlaceConnector(reference: string): (r: Result<Placement>)
    ensures r.Ok? <==> SplitAnnotation(reference).Ok?
    ensures r.Ok? ==> r.value.rotation == FixedRotation && r.value.pos.x == 0.0
    ensures r.Ok? ==> r.value.pos.y == (if reference == "J1" then -15000000.0 else 15000000.0)
  {
    var _ :- SplitAnnotation(reference);
    var sign := if reference == "J1" then -1.0 else 1.0;
    Ok(Placement(Point(0.0, sign * DigitHigh * 1.5 * NmPerMm), FixedRotation))
  }

  /** The two separators are mirror images through the centre. */
  lemma SeparatorsMirrored()
    ensures PlaceSeparator("D73").Ok? && PlaceSeparator("D74").Ok?
    ensures PlaceSeparator("D74").value.pos == Scale(-1.0, PlaceSeparator("D73").value.pos)
  {
    assert NatToDigits(73) == "73";
    SplitName("D", 73, "D73");
    assert NatToDigits(74) == "74";
    SplitName("D", 74, "D74");
  }

  /** The two connectors are mirror images through the centre. */
  lemma ConnectorsMirrored()
    ensures PlaceConnector("J1").Ok? && PlaceConnector("J2").Ok?
    ensures PlaceConnector("J2").value.pos == Scale(-1.0, PlaceConnector("J1").value.pos)
  {
    assert NatToDigits(1) == "1";
    SplitName("J", 1, "J1");
    assert NatToDigits(2) == "2";
    SplitName("J", 2, "J2");
  }

  /** A segment of the board outline on the edge-cuts layer. */
  datatype Segment = Segment(start: Point, end: Point)

  /** Corner `i` of the outline: the corner table `(−1, −1), (−1, 1),
      (1, 1), (1, −1)` scaled by half the board length. */
  function Corner(i: int, length: real): Point
    requires 0 <= i < 4
  {
    var h := length / 2.0 * NmPerMm;
    if i == 0 then Point(-h, -h)
    else if i == 1 then Point(-h, h)
    else if i == 2 then Point(h, h)
    else Point(h, -h)
  }

  /** The four outline segments: from each corner to the next, the last
      one back to the first. */
  function Outline(length: real): (segs: seq<Segment>)
    ensures |segs| == 4
    ensures forall i :: 0 <= i < 3 ==> segs[i].end == segs[i + 1].start
    ensures segs[3].end == segs[0].start
    ensures forall i :: 0 <= i < 4 ==> OnSquare(segs[i], HalfSide(length))
    ensures forall i :: 0 <= i < 4 ==> segs[i] == Segment(Corner(i, length), Corner((i + 1) % 4, length))
  {
    var c := [Corner(0, length), Corner(1, length), Corner(2, length), Corner(3, length)];
    var segs := [Segment(c[0], c[1]), Segment(c[1], c[2]), Segment(c[2], c[3]), Segment(c[3], c[0])];
    SquareSides(length);
    segs
  }

  /** Half the side of the outline of side `length` millimetres, in
      nanometres. */
  function HalfSide(length: real): (h: real)
    ensures h >= 0.0
  {
    Abs(length) / 2.0 * NmPerMm
  }

  /** Each pair of consecutive corners spans a full side of the square. */
  lemma SquareSides(length: real)
    ensures OnSquare(Segment(Corner(0, length), Corner(1, length)), HalfSide(length))
    ensures OnSquare(Segment(Corner(1, length), Corner(2, length)), HalfSide(length))
    ensures OnSquare(Segment(Corner(2, length), Corner(3, length)), HalfSide(length))
    ensures OnSquare(Segment(Corner(3, length), Corner(0, length)), HalfSide(length))
  {
    var h := length / 2.0 * NmPerMm;
    assert Abs(h) == HalfSide(length);
  }

  /** A side of the axis-aligned square of half-side `h` centred on the
      origin: both ends are corners, and it runs along one axis for the full
      side length. */
  predicate OnSquare(s: Segment, h: real) {
    && Abs(s.start.x) == h && Abs(s.start.y) == h
    && Abs(s.end.x) == h && Abs(s.end.y) == h
    && (s.start.x == s.end.x || s.start.y == s.end.y)
    && Abs(s.end.x - s.start.x) + Abs(s.end.y - s.start.y) == 2.0 * h
  }
}

=== FILE: templates.dfy ===
/** The small routing templates: the U-shaped staple between two digit pads,
    the escape along a ray through the origin, and the bridge and dogleg
    that join the members of the colon and decimal-point anode nets. */
module Templates {
  import opened Wrappers
  import opened Geometry
  import opened Nets

  /** The tracks and vias of a staple, and the via it reports. */
  datatype Staple = Staple(items: seq<Item>, outer: Point)

  /** `digit_u_connect(a, b, distance)`: up from `a` on the front, across on
      the back at `distance` millimetres from the pads, and back down to `b`
      on the front, with a via at each change of layer. The via further from
      the vertical centre line is reported, the second one on a tie. */
  function StapleRoute(a: Pad, b: Pad, distance: real): (r: Result<Staple>)
    ensures r.Ok? <==> a.net == b.net
    ensures r.Err? ==> r.error == NetMismatch
    ensures r.Ok? ==>
      var it := r.value.items;
      && |it| == 5 && OnNet(it, a.net)
      && it[0].Track? && it[2].Track? && it[4].Track?
      && Chained([it[0], it[2], it[4]])
      && it[0].start == a.pos && it[4].end == b.pos
      && it[0].layer == Front && it[2].layer == Back && it[4].layer == Front
      && it[1] == Via(it[0].end, a.net) && it[3] == Via(it[2].end, a.net)
      && Vertical(it[0]) && Vertical(it[4])
      && it[0].end.y == a.pos.y + distance * NmPerMm
      && it[4].start.y == b.pos.y + distance * NmPerMm
    ensures r.Ok? ==>
      var va := r.value.items[1].pos;
      var vb := r.value.items[3].pos;
      && (r.value.outer == va || r.value.outer == vb)
      && Abs(r.value.outer.x) >= Abs(va.x) && Abs(r.value.outer.x) >= Abs(vb.x)
      && (Abs(va.x) == Abs(vb.x) ==> r.value.outer == vb)
  {
    if a.net != b.net then Err(NetMismatch)
    else
      var n := a.net;
      var va := Point(a.pos.x, a.pos.y + distance * NmPerMm);
      var vb := Point(b.pos.x, b.pos.y + distance * NmPerMm);
      var items := [
        Track(a.pos, va, n, Front), Via(va, n),
        Track(va, vb, n, Back), Via(vb, n),
        Track(vb, b.pos, n, Front)];
      Ok(Staple(items, if Abs(va.x) <= Abs(vb.x) then vb else va))
  }

  /** `add_track_with_intersection(c, target, net)`: from `c` along the ray
      from the origin through `c` to the vertical line through `target`, a
      via there, then along that line to `target` on the back. The slope
      `c.y / c.x` fails when `c` lies on the vertical axis. */
  function Escape(c: Point, target: Point, net: string): (r: Result<seq<Item>>)
    ensures r.Ok? <==> c.x != 0.0
    ensures r.Err? ==> r.error == DivisionByZero
    ensures r.Ok? ==>
      var it := r.value;
      && |it| == 3 && OnNet(it, net)
      && it[0].Track? && it[0].start == c && it[0].layer == Front
      && it[1] == Via(it[0].end, net)
      && it[2] == Track(it[0].end, target, net, Back)
      && it[0].end.x == target.x
      && it[0].end.y * c.x == it[0].end.x * c.y
  {
    if c.x == 0.0 then Err(DivisionByZero)
    else
      var m := c.y / c.x;
      var e := Point(target.x, target.x * m);
      assert e.y * c.x == e.x * c.y by {
        assert m * c.x == c.y;
        assert target.x * m * c.x == target.x * (m * c.x);
      }
      Ok([Track(c, e, net, Front), Via(e, net), Track(e, target, net, Back)])
  }

  predicate OnConnector(p: Pad) {
    StartsWith(p.parent, 'J')
  }

  /** The position of the first member of a connector, as `next` finds it. */
  function FirstConnector(value: seq<Pad>): (o: Option<nat>)
    ensures o.Some? <==> exists i :: 0 <= i < |value| && OnConnector(value[i])
    ensures o.Some? ==> o.value < |value| && OnConnector(value[o.value])
    ensures o.Some? ==> forall i :: 0 <= i < o.value ==> !OnConnector(value[i])
  {
    if |value| == 0 then None
    else if OnConnector(value[0]) then Some(0)
    else
      match FirstConnector(value[1..])
      case None => None
      case Some(i) => Some(i + 1)
  }

  /** Where the bridge's via goes: 3 mm from `p` towards negative y. */
  function BridgeVia(p: Point): Point {
    Point(p.x, p.y - 3000000.0)
  }

  /** The bridge for the colon and decimal-point anode nets 50, 51, 60 and
      61: the first connector pad is taken out of the member list, the two
      first remaining members are joined on the front, and from a via 3 mm
      towards negative y from one of them a 45° track on the back climbs to
      the connector's x, then runs straight to the connector pad. */
  function Bridge(value: seq<Pad>): (r: Result<seq<Item>>)
    ensures r.Ok? <==> FirstConnector(value).Some? && |value| >= 3
    ensures r.Err? ==> r.error == (if FirstConnector(value).None? then NoConnectorPad else IndexOutOfRange)
    ensures r.Ok? ==>
      var j := FirstConnector(value).value;
      var rest := value[..j] + value[j + 1..];
      var conn := value[j].pos;
      var it := r.value;
      && |it| == 4
      && it[0] == Track(rest[0].pos, rest[1].pos, rest[0].net, Front)
      && it[1].Via? && it[2].Track? && it[3].Track?
      && (rest[0].pos.y > 0.0 ==> it[1] == Via(BridgeVia(rest[0].pos), rest[0].net))
      && (rest[0].pos.y <= 0.0 ==> it[1] == Via(BridgeVia(rest[1].pos), rest[1].net))
      && it[2].start == it[1].pos
      && Abs(it[2].end.x - it[2].start.x) == it[2].end.y - it[2].start.y
      && Chained([it[2], it[3]]) && it[3].end == conn
      && it[2].layer == Back && it[3].layer == Back
      && it[2].net == rest[0].net && it[3].net == rest[0].net
      && it[2].end.x == conn.x
    ensures r.Ok? && (forall i :: 0 <= i < |value| ==> value[i].net == value[0].net) ==>
      OnNet(r.value, value[0].net)
  {
    match FirstConnector(value)
    case None => Err(NoConnectorPad)
    case Some(j) =>
      var conn := value[j];
      var rest := value[..j] + value[j + 1..];
      if |rest| < 2 then Err(IndexOutOfRange)
      else
        var n := rest[0].net;
        var pd := if rest[0].pos.y > 0.0 then rest[0] else rest[1];
        var v := BridgeVia(pd.pos);
        var corner := Point(conn.pos.x, v.y + Abs(conn.pos.x - v.x));
        assert rest[0] in value && rest[1] in value;
        Ok([Track(rest[0].pos, rest[1].pos, n, Front),
            Via(v, pd.net),
            Track(v, corner, n, Back),
            Track(corner, conn.pos, n, Back)])
  }

  /** The dogleg for anode nets 11 and 21: along the front to the second
      member's x, a via, and along the back into the second member. */
  function Dogleg(value: seq<Pad>): (r: Result<seq<Item>>)
    ensures r.Ok? <==> |value| >= 2
    ensures r.Err? ==> r.error == IndexOutOfRange
    ensures r.Ok? ==>
      var it := r.value;
      && |it| == 3 && OnNet(it, value[0].net)
      && it[0].Track? && it[0].layer == Front && Horizontal(it[0])
      && it[2].Track? && it[2].layer == Back && Vertical(it[2])
      && it[0].start == value[0].pos && it[2].end == value[1].pos
      && it[1] == Via(it[0].end, value[0].net) && it[2].start == it[0].end
  {
    if |value| < 2 then Err(IndexOutOfRange)
    else
      var n := value[0].net;
      var elbow := Point(value[1].pos.x, value[0].pos.y);
      Ok([Track(value[0].pos, elbow, n, Front), Via(elbow, n), Track(elbow, value[1].pos, n, Back)])
  }
}

=== FILE: wrappers.dfy ===
/** Failure-compatible wrappers. The generator script has no error handling of
    its own: every failure is an uncaught Python exception that aborts the run
    before the board is saved. Each exception kind the core can raise is one
    `Failure` value here. */
module Wrappers {

  datatype Option<+T> = None | Some(value: T) {
    function GetOr(default: T): T {
      match this
      case Some(v) => v
      case None => default
    }
  }

  /** Why a run of the generator aborts. */
  datatype Failure =
    | NoDigits          // int('') on a reference or net name without a number
    | MissingKey        // dict lookup or dict.pop of an absent key
    | IndexOutOfRange   // list index past the end
    | EmptyMax          // max() of an empty sequence
    | DivisionByZero    // float or int division by zero
    | NoneDereference   // attribute access on None
    | NoConnectorPad    // next() on an exhausted generator
    | NetMismatch       // the consistency assert in the staple router

  datatype Result<+T> = Ok(value: T) | Err(error: Failure) {
    predicate IsFailure() {
      Err?
    }

    function PropagateFailure<U>(): Result<U>
      requires Err?
    {
      Err(error)
    }

    function Extract(): T
      requires Ok?
    {
      value
    }

    /** The value, or `default` for a failure. */
    function ValueOr(default: T): T {
      match this
      case Ok(v) => v
      case Err(_) => default
    }
  }

  /** `f` applied to every element of `xs`, failing with the first failure. */
  function MapAll<A, B>(f: A -> Result<B>, xs: seq<A>): (r: Result<seq<B>>)
    ensures r.Ok? <==> forall i :: 0 <= i < |xs| ==> f(xs[i]).Ok?
    ensures r.Err? ==> exists i :: 0 <= i < |xs| && f(xs[i]) == Err(r.error) && forall j :: 0 <= j < i ==> f(xs[j]).Ok?
    ensures r.Ok? ==> |r.value| == |xs| && forall i :: 0 <= i < |xs| ==> r.value[i] == f(xs[i]).value
  {
    if |xs| == 0 then Ok([])
    else
      var head := f(xs[0]);
      var tail := MapAll(f, xs[1..]);
      assert forall i :: 1 <= i < |xs| ==> xs[i] == xs[1..][i - 1];
      if head.Err? then Err(head.error)
      else if tail.Err? then Err(tail.error)
      else Ok([head.value] + tail.value)
  }
}
